=== FILE: README.md ===
# OIDC / Keycloak identity-provider adapter — Dafny model

This project models the pure core of the generic OIDC authentication
provider and of its Keycloak admin-API client:

- **Principals** (`principals.dfy`): user and group principals with ids of
  the form `oidc_<kind>://<external id>`, the id parser at the head of
  `GetPrincipal`, the "me" / "member-of" flagging against the caller's token,
  and the provider's echo search.
- **Login** (`login.dfy`): the requested scopes, the choice between the
  `id_token` and the `access_token` of the exchange response, the user and
  group principals a login yields and the access check that decides whether
  the access token is returned; the redirect URL.
- **KeycloakGroups** (`groups.dfy`): the recursive group tree and its
  depth-first flattening, which visits at most 100 children per level.
- **KeycloakClient** (`keycloak.dfy`): the admin search URL derived from the
  issuer, the user/group search (query selection by type, 401 handling,
  tagging and ordering of the results) and the lookup by id.
- **GoStrings** (`gostrings.dfy`): `Index`, `Split`, `SplitN(…, 2)`,
  `SplitAfter`, `Join` and `TrimPrefix` as the adapter uses them.

Every foreign call is a parameter: the identity provider's answers
(certificate loading, discovery, code exchange, token verification,
user-info) are the fields of `Login.Idp`; the access policy is
`Login.AccessCheck`; the token manager's membership test is `isMemberOf`;
an HTTP GET to the directory is `fetch(accessToken, url)`, whose reply
carries the status, whether an error came back, and the body already decoded
into each shape the client asks for; URL encoding is the opaque `encode`.

Behaviour of the code worth knowing, which the model follows as written:

- `getSearchURL` keeps `/auth/` in its result: `https://h/auth/realms/foo`
  becomes `https://h/auth/admin/realms/foo` (`KeycloakClient.SearchURLExample`).
  Because `SplitAfter` keeps separators, a second `/auth/` stays at the end of
  the result and the text after it is dropped. There is no error path: an
  issuer without `/auth/` makes Go index past the end of the split, so its
  presence is a precondition.
- A 401 on either search query returns no accounts and no error, discarding
  user accounts already collected.
- The id parser refuses an id only when it has no `:`, when the text before
  the first `:` has no `_`, when both the kind and the external id are empty,
  or when the kind is neither `user` nor `group`. The provider prefix may be
  anything without `_`, including empty, and an empty external id is accepted
  for a known kind.
- `GetPrincipal` line 205 compares the whole id with `"user"`. An id that
  parsed contains `:`, so that branch never runs. Every accepted id is rebuilt
  by `groupToPrincipal` (name `oidc_group://…`) and then flagged with the
  parsed kind, so a user id never resolves to "me" for a token produced by a
  login (`Principals.GetPrincipalUserNeverMe`).
- An exchange response without a usable raw token ends the login with no
  error (see Findings).

## Model

| member | source | states |
|---|---|---|
| `Principals.ParseId` | pkg/auth/providers/oidc/oidc_provider.go:186-204 | an accepted id has kind "user" or "group" and contains ':' |
| `Principals.ParseIdWithoutColon` | pkg/auth/providers/oidc/oidc_provider.go:188-191 | an id without ':' is refused as an invalid id |
| `Principals.ParseIdWithoutUnderscore` | pkg/auth/providers/oidc/oidc_provider.go:193-196 | an id whose text before the first ':' has no '_' is refused as an invalid id |
| `Principals.ParseIdOfShape` | pkg/auth/providers/oidc/oidc_provider.go:188-204 | every other id is accepted exactly when the text between the first '_' and the first ':' is "user" or "group", whatever the provider prefix; the external id is the rest with one leading "//" removed; otherwise an invalid-type error (or invalid id when kind and external id are both empty) |
| `Principals.ParseFormatId` | pkg/auth/providers/oidc/oidc_provider.go:186-198 | round trip: `<p>_<kind>://<x>` parses back to exactly (kind, x) for every external id x, even one holding ':' or starting with "//" |
| `Principals.UserToPrincipal` | pkg/auth/providers/oidc/oidc_provider.go:252-266 | the name is exactly `oidc_user://` followed by the subject, and parses back to ("user", subject); login name is the email; display name is the claimed name, or the email when that is empty; type user; provider "oidc"; neither me nor member |
| `Principals.GroupToPrincipal` | pkg/auth/providers/oidc/oidc_provider.go:268-277 | the name is exactly `oidc_group://` followed by the group name, and parses back to ("group", name); display name is the group name; no login name; type group; provider "oidc"; neither me nor member |
| `Principals.IsThisUserMeEquivalence` | pkg/auth/providers/oidc/oidc_provider.go:371-376 | "is this user me" holds exactly when name, login name and type agree; it is reflexive, symmetric and transitive |
| `Principals.ToPrincipalFromToken` | pkg/auth/providers/oidc/oidc_provider.go:279-296 | the name and provider never change; a user is "me" exactly when it matches the token's user and only then takes the token's login and display names; a group keeps everything but its type and its membership, which comes from the token manager; without a token only the type changes |
| `Principals.ToPrincipalFromTokenUserIdempotent` | pkg/auth/providers/oidc/oidc_provider.go:279-288 | flagging a user twice is the same as flagging it once |
| `Principals.GetPrincipal` | pkg/auth/providers/oidc/oidc_provider.go:183-218 | fails exactly when the id does not parse, with the parser's error; the result's type is the parsed kind and its name is always the group-shaped id of the external id |
| `Principals.GetPrincipalParsed` | pkg/auth/providers/oidc/oidc_provider.go:205-216 | every id that parses resolves to the group principal of its external id, flagged with the parsed kind |
| `Principals.FormatIdKindsDiffer` | pkg/auth/providers/oidc/oidc_provider.go:258-270 | a user id and a group id of the same provider never coincide |
| `Principals.GetPrincipalGroup` | pkg/auth/providers/oidc/oidc_provider.go:213-216 | a group id resolves to the group principal with its membership decided by the token manager |
| `Principals.GetPrincipalUserNeverMe` | pkg/auth/providers/oidc/oidc_provider.go:205-216 | a user id resolves to a user-typed principal with the external id as display name and no login name, never "me" for a token whose user came from a login |
| `Principals.SearchPrincipals` | pkg/auth/providers/oidc/oidc_provider.go:164-181 | exactly one candidate named `oidc_<type>://<value>`, echoing the search value as display and login name, typed "user" when no type is given; for a known type its id parses back to (type, value), for an unknown type without ':' the id is refused |
| `Login.Scopes` | pkg/auth/providers/oidc/oidc_provider.go:106-108 | "openid" first, then comma-free scopes that join back with ',' to the configured string |
| `Login.ScopesRoundTrip` | pkg/auth/providers/oidc/oidc_provider.go:106-108 | any list of comma-free scopes written into the configuration is requested back exactly, after "openid" |
| `Login.RawToken` | pkg/auth/providers/oidc/oidc_provider.go:123-129 | a string "id_token" is preferred; otherwise a string "access_token"; none exactly when neither is a string; the chosen token always comes from one of the two fields |
| `Login.GroupPrincipals` | pkg/auth/providers/oidc/oidc_provider.go:147-152 | one group principal per claimed group, in order, named exactly `oidc_group://<group>` (which parses back to that group), with no login name, provider "oidc", a membership, never "me" |
| `Login.Authorize` | pkg/auth/providers/oidc/oidc_provider.go:144-161 | the user is flagged "me" and parses back to its subject; the access token is returned exactly when the policy allows without failing; a policy failure or a deny returns an empty token with the matching error |
| `Login.LoginUser` | pkg/auth/providers/oidc/oidc_provider.go:85-161 | an error never comes with a token; a non-empty token is only returned for a "me" user the access policy allowed; no missing-token error exists; a "me" user means the certificate, discovery, exchange, raw-token choice, verification, user-info and claims all succeeded and the outcome is the access decision on the built principals |
| `Login.LoginUserReachesGate` | pkg/auth/providers/oidc/oidc_provider.go:130-161 | once exchange, verification and user-info succeed, the login's outcome is the access decision on the built principals |
| `Login.LoginUserExchangeRequest` | pkg/auth/providers/oidc/oidc_provider.go:106-121 | the code is exchanged with the scope list and the space-joined scope parameter; a failed exchange is an exchange error |
| `Login.LoginUserMissingTokenIsNoError` | pkg/auth/providers/oidc/oidc_provider.go:123-129 | with no usable raw token the login returns no error, the empty principal, no groups and no token |
| `Login.LoginUserMissingTokenExample` | pkg/auth/providers/oidc/oidc_provider.go:123-129 | a concrete response with a non-string "id_token" yields no error and the empty principal |
| `Login.LoginUserChecked` | pkg/auth/providers/oidc/oidc_provider.go:85-161 | corrected login: success always means a "me" user the policy allowed without failure; errors carry no token; a "me" user means every step before the access check succeeded and the outcome is the access decision on the built principals |
| `Login.LoginUserCheckedAgrees` | pkg/auth/providers/oidc/oidc_provider.go:123-129 | the corrected login equals the written one except where no raw token is found |
| `Login.RedirectQuery` | pkg/auth/providers/oidc/oidc_provider.go:226-233 | the query is `client_id=<client id>`, `response_type=code` and `redirect_uri=<redirect URI>` joined by '&'; a missing key renders as Go's nil |
| `Login.RedirectQueryParams` | pkg/auth/providers/oidc/oidc_provider.go:226-233 | when neither configured value holds '&', splitting the query at '&' gives back exactly those three parameters, so the request always asks for an authorization code |
| `Login.RedirectURL` | pkg/auth/providers/oidc/oidc_provider.go:226-233 | starts with the auth endpoint and '?'; when the endpoint has no '?', cutting at the first '?' gives back exactly the endpoint and the query |
| `KeycloakGroups.SubGroups` | pkg/auth/providers/keycloakoidc/keycloak_client.go:107-120 | no subgroups give the empty result; the result is no longer than the number of descendants |
| `KeycloakGroups.SubGroupsSmaller` | pkg/auth/providers/keycloakoidc/keycloak_client.go:107-120 | every element has strictly fewer descendants than the input, so the input never appears |
| `KeycloakGroups.VisitFrom` | pkg/auth/providers/keycloakoidc/keycloak_client.go:110-117 | the loop from child i on yields no more nodes than the remaining subtrees hold |
| `KeycloakGroups.VisitSmaller` | pkg/auth/providers/keycloakoidc/keycloak_client.go:110-117 | the loop from child i on yields only nodes smaller than the remaining subtrees |
| `KeycloakGroups.SubGroupsMembers` | pkg/auth/providers/keycloakoidc/keycloak_client.go:110-117 | a group appears exactly when it is reachable through children at index below 100 at every level |
| `KeycloakGroups.SubGroupsAreDescendants` | pkg/auth/providers/keycloakoidc/keycloak_client.go:107-120 | every element is a strict descendant and differs from the input; when no level has more than 100 children the elements are exactly the descendants |
| `KeycloakGroups.SubGroupsLengthWithinCap` | pkg/auth/providers/keycloakoidc/keycloak_client.go:107-120 | when no level has more than 100 children the result has one entry per descendant node |
| `KeycloakGroups.PreOrder` | pkg/auth/providers/keycloakoidc/keycloak_client.go:110-116 | each visited child sits at its offset, immediately followed by its own flattening, children in original order |
| `KeycloakGroups.PreOrderEnd` | pkg/auth/providers/keycloakoidc/keycloak_client.go:110-119 | nothing follows the block of the last visited child |
| `KeycloakGroups.SubGroupsIgnoresChildrenPastCap` | pkg/auth/providers/keycloakoidc/keycloak_client.go:113 | children at index 100 or beyond do not influence the result at all |
| `KeycloakGroups.TruncateWithinCap` | pkg/auth/providers/keycloakoidc/keycloak_client.go:113 | the cut tree has no level with more than 100 children |
| `KeycloakGroups.TruncateKeepsLabels` | pkg/auth/providers/keycloakoidc/keycloak_client.go:107-120 | the cap applies at every level: cutting every level of the tree to its first 100 children leaves the ids and names of the flattening, and their order, unchanged |
| `KeycloakClient.SearchURL` | pkg/auth/providers/keycloakoidc/keycloak_client.go:142-149 | the issuer up to and including its first "/auth/", then "admin/", then the rest of the issuer up to and including any second "/auth/" |
| `KeycloakClient.SearchURLExample` | pkg/auth/providers/keycloakoidc/keycloak_client.go:142-149 | "https://h/auth/realms/foo" becomes "https://h/auth/admin/realms/foo" |
| `KeycloakClient.TagUsers` | pkg/auth/providers/keycloakoidc/keycloak_client.go:74-77 | the user records in response order, each tagged "user", every other field unchanged |
| `KeycloakClient.GroupAccounts` | pkg/auth/providers/keycloakoidc/keycloak_client.go:96-102 | every account a group search adds is tagged "group"; there is at least one per returned group and the first is the first group's own account |
| `KeycloakClient.GroupAccountsSingle` | pkg/auth/providers/keycloakoidc/keycloak_client.go:96-101 | a single group is reported as its own account followed by the accounts of its flattened subgroups, in flattening order |
| `KeycloakClient.GroupAccountsAppend` | pkg/auth/providers/keycloakoidc/keycloak_client.go:96-101 | the accounts for the groups `a + b` are those for `a` followed by those for `b`, so groups are reported in response order |
| `KeycloakClient.GroupAccountsMembers` | pkg/auth/providers/keycloakoidc/keycloak_client.go:96-102 | the group accounts are exactly those of the returned groups and of their flattened subgroups |
| `KeycloakClient.GroupAccountsLength` | pkg/auth/providers/keycloakoidc/keycloak_client.go:96-102 | when no level has more than 100 children there is one account per group node of the returned forest |
| `KeycloakClient.UserQuery` | pkg/auth/providers/keycloakoidc/keycloak_client.go:57-78 | one GET of `<base>/users?search=<term>`; a 401 stops with no accounts and no error; a fetch error stops with a request-failed error carrying status and URL, an undecodable body with a decode error, both with no accounts; otherwise the tagged users |
| `KeycloakClient.GroupQuery` | pkg/auth/providers/keycloakoidc/keycloak_client.go:79-103 | one more GET of `<base>/groups?search=<term>`; a 401 discards everything with no error; a fetch error or an undecodable body keeps the accounts so far and returns that error; a reply that is not a 401, did not fail and decoded gives no error and appends its group accounts, and no error without a 401 happens only that way |
| `KeycloakClient.GroupQueryKeepsOrder` | pkg/auth/providers/keycloakoidc/keycloak_client.go:79-103 | given user accounts, every outcome of the group query lists accounts tagged user or group with no user after a group |
| `KeycloakClient.GroupQueryAnswered` | pkg/auth/providers/keycloakoidc/keycloak_client.go:96-103 | a group query with no error and no 401 adds exactly the group accounts of its reply |
| `KeycloakClient.SearchPrincipals` | pkg/auth/providers/keycloakoidc/keycloak_client.go:51-105 | an unknown type queries nothing and returns nothing; the queries made are a prefix of those the type plans, and all of them when no 401 and no error occurred; a 401 on any query made gives no accounts and no error; every account is tagged user or group and no user follows a group |
| `KeycloakClient.Search401` | pkg/auth/providers/keycloakoidc/keycloak_client.go:57-95 | a 401 on the user query returns no accounts, no error and that one request; a 401 on the group query after a good (or skipped) user step returns no accounts and no error after both planned requests |
| `KeycloakClient.SearchAnswered` | pkg/auth/providers/keycloakoidc/keycloak_client.go:57-104 | for every type, when each query it asks for is answered with no 401, no fetch error and a decodable body, the search returns no error, makes exactly the planned requests, and reports the tagged users (if asked) followed by the group accounts (if asked) |
| `KeycloakClient.SearchAccounts` | pkg/auth/providers/keycloakoidc/keycloak_client.go:57-104 | with no error and no 401, a search returns the tagged users if it asked for users, followed by the group accounts if it asked for groups |
| `KeycloakClient.SearchUserFailure` | pkg/auth/providers/keycloakoidc/keycloak_client.go:62-72 | a failed user fetch ends the search with a request-failed error carrying status and URL, an undecodable user body with a decode error; both with no accounts and that single request |
| `KeycloakClient.SearchGroupFailure` | pkg/auth/providers/keycloakoidc/keycloak_client.go:84-95 | a failed or undecodable group query, after the user query (if any) succeeded, returns the user accounts with an error |
| `KeycloakClient.SearchBothAnswered` | pkg/auth/providers/keycloakoidc/keycloak_client.go:57-102 | with both queries answered, the result is the tagged users followed by the group accounts, with no error |
| `KeycloakClient.SearchGroupFailureKeepsUsers` | pkg/auth/providers/keycloakoidc/keycloak_client.go:88-95 | a failed or undecodable group query after a good user query returns the user accounts with the error |
| `KeycloakClient.GetFromKeyCloakByID` | pkg/auth/providers/keycloakoidc/keycloak_client.go:122-141 | GETs `<base>/<type>/<id>`; succeeds exactly when the fetch has no error and the body decodes to an account, which is returned; a fetch error carries the status and URL |
| `KeycloakClient.LookupIgnoresStatus` | pkg/auth/providers/keycloakoidc/keycloak_client.go:129-139 | the status code alone never changes the account found or whether the lookup succeeds (a 401 is not special) |

## Findings

| source | as written | input that shows it | evidently intended | confidence | as-written member | corrected member |
|---|---|---|---|---|---|---|
| pkg/auth/providers/oidc/oidc_provider.go:123-129 | when the exchange response has neither an "id_token" nor an "access_token" string, the login returns `err`, which is nil after the successful exchange: no error, an empty user principal, no token | an exchange response whose "id_token" is not a string and that has no "access_token" (`Login.LoginUserMissingTokenExample`) | fail the login with a missing-token error | medium; not executed | `Login.LoginUserMissingTokenExample` | `Login.LoginUserChecked` |

## Left out

- Configuration storage and secrets (`GetOIDCConfig`, `saveOIDCConfig`, `CreateOrUpdateSecrets`, `ReadFromSecret`): Kubernetes and secret-store plumbing. `LoginUser` takes the configuration as given; the branch that loads it when none is passed is not modelled.
- HTTP and TLS (`getFromKeyCloak`, `newClient`, `AddCertKeyToContext`, `GetClientWithCertKey`): the GET is the `fetch` oracle and certificate loading is `Idp.certKeyOk`. Whether a non-2xx status comes with an error is decided inside `getFromKeyCloak`, so it belongs to the oracle.
- OIDC library calls (`oidc.NewProvider`, `Exchange`, `Verify`, `UserInfo`, claim decoding): foreign calls, modelled as the fields of `Login.Idp`. The verified token payload is discarded by the source, so `verify` answers only accept or reject.
- `UserMGR.CheckAccess` and `TokenMGR.IsMemberOf`: external policy services, modelled as the `AccessCheck` and `isMemberOf` parameters.
- `URLEncoded`: relies on `url.Parse`; it is the opaque `encode` parameter.
- `json.Unmarshal`: decoding is abstracted into `KeycloakClient.Body`, which holds each decoded shape or `None` on failure.
- Error texts, logging, `CustomizeSchema`, `TransformToAuthProvider`, `RefetchGroupPrincipals`, `CanAccessWithGroupProviders`, `GetUserExtraAttributes`, `AuthenticateUser`'s input type check and `Configure`: framework glue or one-line delegation to the oracles above.
- The distinction between Go's nil and empty slices: both are the empty sequence.
- Byte strings: Go strings are sequences of bytes, while the model uses sequences of characters (`seq<char>`). Every separator the adapter splits or searches on (`:`, `_`, `//`, `,`, ` `, `&`, `?`, `/auth/`) is ASCII, so the two views agree on where the splits fall; multi-byte encodings are not modelled.
- `KeycloakClient.GetFromKeyCloakByID`: on an unmarshal failure it returns the empty account, where Go returns whatever `json.Unmarshal` filled in before failing.
- `KeycloakClient.SearchURL`: an issuer without "/auth/" is excluded by a precondition, because Go panics on it rather than returning an error.
- `Login.RedirectURL`: configuration values are strings; non-string values, which `%s` formats differently, are not modelled.
- The principal record holds only the fields this provider reads or writes; object metadata other than the name, and extra info, are not modelled.

=== FILE: gostrings.dfy ===
/** The handful of Go `strings` routines the adapter relies on, modelled over
    `seq<char>`.  Go strings are byte strings; every separator used by the
    adapter (":", "_", "//", ",", " ", "&", "?", "/auth/") is ASCII, so the
    byte view and the character view agree on where they split. */
module GoStrings {

  datatype Option<T> = None | Some(value: T)

  /** `sep` occurs in `s` starting at position `i`. */
  predicate OccursAt(s: string, sep: string, i: int) {
    0 <= i && i + |sep| <= |s| && s[i..i + |sep|] == sep
  }

  /** First occurrence of `sep` in `s` at or after `from` (Go's `strings.Index`
      when `from` is 0). */
  function IndexFrom(s: string, sep: string, from: nat): (r: Option<nat>)
    requires from <= |s|
    ensures r.Some? ==> from <= r.value && OccursAt(s, sep, r.value)
    ensures r.Some? ==> forall j :: from <= j < r.value ==> !OccursAt(s, sep, j)
    ensures r.None? ==> forall j :: from <= j ==> !OccursAt(s, sep, j)
    decreases |s| - from
  {
    if OccursAt(s, sep, from) then Some(from)
    else if from == |s| then None
    else IndexFrom(s, sep, from + 1)
  }

  /** `strings.Index`, with `None` standing for Go's -1. */
  function Index(s: string, sep: string): (r: Option<nat>)
    ensures r.Some? ==> OccursAt(s, sep, r.value)
    ensures r.Some? ==> forall j :: 0 <= j < r.value ==> !OccursAt(s, sep, j)
    ensures r.None? ==> forall j :: !OccursAt(s, sep, j)
  {
    IndexFrom(s, sep, 0)
  }

  /** `strings.Contains` */
  predicate Contains(s: string, sep: string) {
    Index(s, sep).Some?
  }

  /** An occurrence with no earlier occurrence is the one `Index` finds. */
  lemma IndexIsFirst(s: string, sep: string, i: nat)
    requires OccursAt(s, sep, i)
    requires forall j :: 0 <= j < i ==> !OccursAt(s, sep, j)
    ensures Index(s, sep) == Some(i)
  {
  }

  /** A one-character separator occurs exactly where that character is. */
  lemma OccursAtChar(s: string, c: char, i: int)
    ensures OccursAt(s, [c], i) <==> 0 <= i < |s| && s[i] == c
  {
    if 0 <= i < |s| {
      assert s[i..i + 1] == [s[i]];
    }
  }

  /** A character absent from a string is nowhere found in it. */
  lemma IndexOfAbsentChar(s: string, c: char)
    requires c !in s
    ensures Index(s, [c]) == None
  {
    if Index(s, [c]).Some? {
      OccursAtChar(s, c, Index(s, [c]).value);
    }
  }

  /** In `a + [c] + b`, with `c` absent from `a`, the first `c` is at `|a|`. */
  lemma IndexOfCharAfter(a: string, c: char, b: string)
    requires c !in a
    ensures Index(a + [c] + b, [c]) == Some(|a|)
  {
    var s := a + [c] + b;
    OccursAtChar(s, c, |a|);
    forall j | 0 <= j < |a|
      ensures !OccursAt(s, [c], j)
    {
      OccursAtChar(s, c, j);
      assert s[j] == a[j];
    }
    IndexIsFirst(s, [c], |a|);
  }

  /** `strings.HasPrefix` */
  predicate HasPrefix(s: string, prefix: string) {
    |prefix| <= |s| && s[..|prefix|] == prefix
  }

  /** `strings.TrimPrefix`: drops ONE leading copy of `prefix`, if present. */
  function TrimPrefix(s: string, prefix: string): (r: string)
    ensures HasPrefix(s, prefix) ==> s == prefix + r
    ensures !HasPrefix(s, prefix) ==> r == s
  {
    if HasPrefix(s, prefix) then s[|prefix|..] else s
  }

  lemma TrimPrefixOfPrefixed(prefix: string, rest: string)
    ensures TrimPrefix(prefix + rest, prefix) == rest
  {
    assert (prefix + rest)[..|prefix|] == prefix;
  }

  /** `strings.Join` */
  function Join(xs: seq<string>, sep: string): string
  {
    if |xs| == 0 then ""
    else if |xs| == 1 then xs[0]
    else xs[0] + sep + Join(xs[1..], sep)
  }

  /** The text before the first occurrence has no occurrence of its own. */
  lemma BeforeFirstHasNone(s: string, sep: string, i: nat)
    requires |sep| > 0
    requires i <= |s|
    requires forall j :: 0 <= j < i ==> !OccursAt(s, sep, j)
    ensures Index(s[..i], sep).None?
  {
    if Index(s[..i], sep).Some? {
      var j := Index(s[..i], sep).value;
      assert s[..i][j..j + |sep|] == s[j..j + |sep|];
      assert OccursAt(s, sep, j);
    }
  }

  /** `strings.Split` for a non-empty separator: the pieces between
      consecutive occurrences, separators removed.  An empty `s` gives `[""]`. */
  function Split(s: string, sep: string): (r: seq<string>)
    requires |sep| > 0
    ensures |r| >= 1
    ensures forall k :: 0 <= k < |r| ==> Index(r[k], sep).None?
    decreases |s|
  {
    match Index(s, sep)
    case None => [s]
    case Some(i) =>
      BeforeFirstHasNone(s, sep, i);
      [s[..i]] + Split(s[i + |sep|..], sep)
  }

  /** Joining a piece in front of a non-empty list inserts one separator. */
  lemma JoinCons(x: string, xs: seq<string>, sep: string)
    requires |xs| >= 1
    ensures Join([x] + xs, sep) == x + sep + Join(xs, sep)
  {
    assert ([x] + xs)[1..] == xs;
  }

  /** Joining the pieces of a split with the same separator restores the text. */
  lemma {:induction false} SplitJoin(s: string, sep: string)
    requires |sep| > 0
    ensures Join(Split(s, sep), sep) == s
    decreases |s|
  {
    match Index(s, sep)
    case None =>
    case Some(i) =>
      var rest := s[i + |sep|..];
      var pieces := Split(rest, sep);
      assert Split(s, sep) == [s[..i]] + pieces;
      SplitJoin(rest, sep);
      JoinCons(s[..i], pieces, sep);
      SplitAround(s, sep, i);
  }

  lemma SplitAround(s: string, sep: string, i: nat)
    requires OccursAt(s, sep, i)
    ensures s == s[..i] + sep + s[i + |sep|..]
  {
    assert s == s[..i] + s[i..i + |sep|] + s[i + |sep|..];
  }

  /** Conversely, for a one-character separator, splitting a join of
      separator-free pieces gives back exactly those pieces. */
  lemma {:induction false} JoinSplit(xs: seq<string>, c: char)
    requires |xs| >= 1
    requires forall k :: 0 <= k < |xs| ==> c !in xs[k]
    ensures Split(Join(xs, [c]), [c]) == xs
    decreases |xs|
  {
    if |xs| == 1 {
      IndexOfAbsentChar(xs[0], c);
    } else {
      var tail := Join(xs[1..], [c]);
      IndexOfCharAfter(xs[0], c, tail);
      JoinSplit(xs[1..], c);
      var s := xs[0] + [c] + tail;
      assert s[..|xs[0]|] == xs[0];
      assert s[|xs[0]| + 1..] == tail;
      assert xs == [xs[0]] + xs[1..];
    }
  }

  /** `strings.SplitN(s, sep, 2)`: one piece when `sep` is absent, otherwise
      the text before and after its first occurrence. */
  function SplitN2(s: string, sep: string): (r: seq<string>)
    requires |sep| > 0
    ensures Index(s, sep).None? <==> |r| == 1
    ensures |r| == 1 ==> r[0] == s
    ensures |r| == 2 ==> s == r[0] + sep + r[1] && Index(r[0], sep).None?
    ensures |r| == 1 || |r| == 2
  {
    match Index(s, sep)
    case None => [s]
    case Some(i) =>
      BeforeFirstHasNone(s, sep, i);
      assert s == s[..i] + s[i..i + |sep|] + s[i + |sep|..];
      [s[..i], s[i + |sep|..]]
  }

  /** `strings.SplitAfter` for a non-empty separator: the pieces keep their
      trailing separator, so every piece but the last ends with `sep`. */
  function SplitAfter(s: string, sep: string): (r: seq<string>)
    requires |sep| > 0
    ensures |r| >= 1
    ensures Index(s, sep).None? ==> r == [s]
    ensures Index(s, sep).Some? ==> |r| >= 2
    decreases |s|
  {
    match Index(s, sep)
    case None => [s]
    case Some(i) => [s[..i + |sep|]] + SplitAfter(s[i + |sep|..], sep)
  }
}

=== FILE: groups.dfy ===
/** Keycloak groups and the bounded depth-first flattening of their nested
    subgroups (getSubGroups in the Keycloak client). */
module KeycloakGroups {

  /** A group as the directory returns it, with its nested subgroups. */
  datatype Group = Group(id: int, name: string, subgroups: seq<Group>)

  /** At every level only the children at an index below this are visited. */
  const MaxSubgroups := 100

  /** Number of strict descendants of `g`, counting every node of the tree
      below it once. */
  function Count(g: Group): nat
    decreases g, |g.subgroups| + 1
  {
    CountFrom(g, 0)
  }

  /** Number of nodes in the subtrees of the children of `g` from index `i` on. */
  function CountFrom(g: Group, i: nat): nat
    requires i <= |g.subgroups|
    decreases g, |g.subgroups| - i
  {
    if i == |g.subgroups| then 0
    else 1 + Count(g.subgroups[i]) + CountFrom(g, i + 1)
  }

  /** getSubGroups: for each child at an index below 100, in order, the child
      itself followed by its own flattening. */
  function SubGroups(g: Group): (r: seq<Group>)
    ensures |g.subgroups| == 0 ==> r == []
    ensures |r| <= Count(g)
    decreases g, |g.subgroups| + 1
  {
    VisitFrom(g, 0)
  }

  /** The loop of getSubGroups from child index `i` on; a child at index 100
      or beyond contributes nothing. */
  function VisitFrom(g: Group, i: nat): (r: seq<Group>)
    requires i <= |g.subgroups|
    ensures |r| <= CountFrom(g, i)
    decreases g, |g.subgroups| - i
  {
    if i == |g.subgroups| then []
    else
      (if i < MaxSubgroups then [g.subgroups[i]] + SubGroups(g.subgroups[i]) else [])
      + VisitFrom(g, i + 1)
  }

  /** Every element of the flattening has strictly fewer descendants than
      the input, so the input itself never appears. */
  lemma {:induction false} SubGroupsSmaller(g: Group)
    ensures forall x :: x in SubGroups(g) ==> Count(x) < Count(g)
    decreases g, |g.subgroups| + 1
  {
    VisitSmaller(g, 0);
  }

  lemma {:induction false} VisitSmaller(g: Group, i: nat)
    requires i <= |g.subgroups|
    ensures forall x :: x in VisitFrom(g, i) ==> Count(x) < CountFrom(g, i)
    decreases g, |g.subgroups| - i
  {
    if i < |g.subgroups| {
      VisitSmaller(g, i + 1);
      SubGroupsSmaller(g.subgroups[i]);
    }
  }

  /** `d` lies somewhere strictly below `g`. */
  ghost predicate Descends(g: Group, d: Group)
    decreases g
  {
    exists i :: 0 <= i < |g.subgroups| && (g.subgroups[i] == d || Descends(g.subgroups[i], d))
  }

  /** `d` lies below `g` on a path that takes, at every level, a child at an
      index below MaxSubgroups. */
  ghost predicate VisibleDescendant(g: Group, d: Group)
    decreases g
  {
    exists i :: 0 <= i < |g.subgroups| && i < MaxSubgroups &&
      (g.subgroups[i] == d || VisibleDescendant(g.subgroups[i], d))
  }

  /** No level of the tree has more than MaxSubgroups children. */
  predicate WithinCap(g: Group)
    decreases g
  {
    |g.subgroups| <= MaxSubgroups &&
    forall i :: 0 <= i < |g.subgroups| ==> WithinCap(g.subgroups[i])
  }

  /** The flattening holds exactly the visible descendants: a child at index
      100 or beyond, and whatever is reachable only through such children,
      never appears. */
  lemma {:induction false} SubGroupsMembers(g: Group, x: Group)
    ensures x in SubGroups(g) <==> VisibleDescendant(g, x)
    decreases g, |g.subgroups| + 1
  {
    VisitMembers(g, 0, x);
  }

  lemma {:induction false} VisitMembers(g: Group, i: nat, x: Group)
    requires i <= |g.subgroups|
    ensures x in VisitFrom(g, i) <==>
            exists j :: i <= j < |g.subgroups| && j < MaxSubgroups &&
              (g.subgroups[j] == x || VisibleDescendant(g.subgroups[j], x))
    decreases g, |g.subgroups| - i
  {
    if i < |g.subgroups| {
      var child := g.subgroups[i];
      var here := if i < MaxSubgroups then [child] + SubGroups(child) else [];
      assert VisitFrom(g, i) == here + VisitFrom(g, i + 1);
      VisitMembers(g, i + 1, x);
      if i < MaxSubgroups {
        SubGroupsMembers(child, x);
      }
      if x in VisitFrom(g, i) {
        if x in here {
          assert i < MaxSubgroups && (child == x || VisibleDescendant(child, x));
        } else {
          assert x in VisitFrom(g, i + 1);
        }
      }
      if exists j :: i <= j < |g.subgroups| && j < MaxSubgroups &&
                     (g.subgroups[j] == x || VisibleDescendant(g.subgroups[j], x)) {
        var j :| i <= j < |g.subgroups| && j < MaxSubgroups &&
                 (g.subgroups[j] == x || VisibleDescendant(g.subgroups[j], x));
        if j == i {
          assert x in here;
        } else {
          assert x in VisitFrom(g, i + 1);
        }
      }
    }
  }

  /** Every visible descendant is a descendant. */
  lemma {:induction false} VisibleIsDescendant(g: Group, x: Group)
    requires VisibleDescendant(g, x)
    ensures Descends(g, x)
    decreases g
  {
    var i :| 0 <= i < |g.subgroups| && i < MaxSubgroups &&
             (g.subgroups[i] == x || VisibleDescendant(g.subgroups[i], x));
    if g.subgroups[i] != x {
      VisibleIsDescendant(g.subgroups[i], x);
    }
  }

  /** When no level exceeds the cap, every descendant is visible. */
  lemma {:induction false} DescendantIsVisible(g: Group, x: Group)
    requires WithinCap(g)
    requires Descends(g, x)
    ensures VisibleDescendant(g, x)
    decreases g
  {
    var i :| 0 <= i < |g.subgroups| && (g.subgroups[i] == x || Descends(g.subgroups[i], x));
    if g.subgroups[i] != x {
      DescendantIsVisible(g.subgroups[i], x);
    }
  }

  /** Every element of the flattening is a strict descendant of the input,
      and the input itself is never included; when no level exceeds the cap,
      the flattening holds every descendant. */
  lemma SubGroupsAreDescendants(g: Group, x: Group)
    ensures x in SubGroups(g) ==> Descends(g, x) && x != g
    ensures WithinCap(g) ==> (x in SubGroups(g) <==> Descends(g, x))
  {
    SubGroupsMembers(g, x);
    SubGroupsSmaller(g);
    if x in SubGroups(g) {
      VisibleIsDescendant(g, x);
    }
    if WithinCap(g) && Descends(g, x) {
      DescendantIsVisible(g, x);
    }
  }

  /** When no level exceeds the cap, the flattening has exactly one entry
      per descendant node. */
  lemma {:induction false} SubGroupsLengthWithinCap(g: Group)
    requires WithinCap(g)
    ensures |SubGroups(g)| == Count(g)
    decreases g, |g.subgroups| + 1
  {
    VisitLengthWithinCap(g, 0);
  }

  lemma {:induction false} VisitLengthWithinCap(g: Group, i: nat)
    requires WithinCap(g)
    requires i <= |g.subgroups|
    ensures |VisitFrom(g, i)| == CountFrom(g, i)
    decreases g, |g.subgroups| - i
  {
    if i < |g.subgroups| {
      SubGroupsLengthWithinCap(g.subgroups[i]);
      VisitLengthWithinCap(g, i + 1);
    }
  }

  /** Children at index 100 or beyond contribute nothing. */
  lemma {:induction false} VisitPastCap(g: Group, i: nat)
    requires MaxSubgroups <= i <= |g.subgroups|
    ensures VisitFrom(g, i) == []
    decreases |g.subgroups| - i
  {
    if i < |g.subgroups| {
      VisitPastCap(g, i + 1);
    }
  }

  function Min(a: nat, b: nat): nat {
    if a <= b then a else b
  }

  /** Position in the flattening at which the entry for child `i` starts. */
  function Offset(g: Group, i: nat): nat
    requires i <= |g.subgroups|
  {
    if i == 0 then 0 else Offset(g, i - 1) + 1 + |SubGroups(g.subgroups[i - 1])|
  }

  /** One visited child's block: the child, then its own flattening. */
  function Block(child: Group): seq<Group> {
    [child] + SubGroups(child)
  }

  lemma VisitStep(g: Group, i: nat)
    requires i < Min(MaxSubgroups, |g.subgroups|)
    ensures VisitFrom(g, i) == Block(g.subgroups[i]) + VisitFrom(g, i + 1)
    ensures Offset(g, i + 1) == Offset(g, i) + |Block(g.subgroups[i])|
  {
  }

  /** Dropping a further prefix `a` from a suffix that starts with `a`. */
  lemma DropPrefix<T>(s: seq<T>, o: nat, a: seq<T>, b: seq<T>)
    requires o <= |s| && s[o..] == a + b
    ensures o + |a| <= |s| && s[o + |a|..] == b
  {
    assert s[o + |a|..] == s[o..][|a|..];
  }

  lemma {:induction false} VisitSuffix(g: Group, i: nat)
    requires i <= Min(MaxSubgroups, |g.subgroups|)
    ensures Offset(g, i) <= |SubGroups(g)|
    ensures SubGroups(g)[Offset(g, i)..] == VisitFrom(g, i)
    decreases i
  {
    var all := SubGroups(g);
    if i == 0 {
      assert all[0..] == all;
    } else {
      VisitSuffix(g, i - 1);
      VisitStep(g, i - 1);
      var block := Block(g.subgroups[i - 1]);
      DropPrefix(all, Offset(g, i - 1), block, VisitFrom(g, i));
      assert Offset(g, i) == Offset(g, i - 1) + |block|;
    }
  }

  lemma BlockParts(s: seq<Group>, o: nat, child: Group, rest: seq<Group>)
    requires o <= |s|
    requires s[o..] == [child] + SubGroups(child) + rest
    ensures o + 1 + |SubGroups(child)| <= |s|
    ensures s[o] == child
    ensures s[o + 1 .. o + 1 + |SubGroups(child)|] == SubGroups(child)
  {
    var n := 1 + |SubGroups(child)|;
    assert s[o] == s[o..][0];
    assert s[o + 1 .. o + n] == s[o..][1 .. n];
  }

  /** Pre-order: the visited children appear in their original order, each
      immediately followed by the flattening of its own subgroups. */
  lemma PreOrder(g: Group, i: nat)
    requires i < Min(MaxSubgroups, |g.subgroups|)
    ensures Offset(g, i + 1) <= |SubGroups(g)|
    ensures SubGroups(g)[Offset(g, i)] == g.subgroups[i]
    ensures SubGroups(g)[Offset(g, i) + 1 .. Offset(g, i + 1)] == SubGroups(g.subgroups[i])
  {
    VisitSuffix(g, i);
    VisitStep(g, i);
    BlockParts(SubGroups(g), Offset(g, i), g.subgroups[i], VisitFrom(g, i + 1));
  }

  /** Nothing follows the block of the last visited child. */
  lemma PreOrderEnd(g: Group)
    ensures |SubGroups(g)| == Offset(g, Min(MaxSubgroups, |g.subgroups|))
  {
    var k := Min(MaxSubgroups, |g.subgroups|);
    VisitSuffix(g, k);
    if k < |g.subgroups| {
      VisitPastCap(g, k);
    }
  }

  lemma {:induction false} VisitIgnoresTail(g: Group, i: nat)
    requires i <= MaxSubgroups < |g.subgroups|
    ensures VisitFrom(g, i) == VisitFrom(g.(subgroups := g.subgroups[..MaxSubgroups]), i)
    decreases MaxSubgroups - i
  {
    if i < MaxSubgroups {
      VisitIgnoresTail(g, i + 1);
    } else {
      VisitPastCap(g, i);
    }
  }

  /** The result depends only on the first 100 children: dropping the rest
      changes nothing. */
  lemma SubGroupsIgnoresChildrenPastCap(g: Group)
    requires |g.subgroups| > MaxSubgroups
    ensures SubGroups(g) == SubGroups(g.(subgroups := g.subgroups[..MaxSubgroups]))
  {
    VisitIgnoresTail(g, 0);
  }

  /** The tree cut to its first 100 children at every level. */
  function Truncate(g: Group): (t: Group)
    ensures t.id == g.id && t.name == g.name
    ensures |t.subgroups| == Min(MaxSubgroups, |g.subgroups|)
    decreases g
  {
    var n := Min(MaxSubgroups, |g.subgroups|);
    Group(g.id, g.name, seq(n, i requires 0 <= i < n => Truncate(g.subgroups[i])))
  }

  /** Each kept child is itself cut at every level. */
  lemma TruncateChild(g: Group, i: nat)
    requires i < Min(MaxSubgroups, |g.subgroups|)
    ensures Truncate(g).subgroups[i] == Truncate(g.subgroups[i])
  {
  }

  /** The cut tree has no level above the cap. */
  lemma {:induction false} TruncateWithinCap(g: Group)
    ensures WithinCap(Truncate(g))
    decreases g
  {
    var t := Truncate(g);
    forall i | 0 <= i < |t.subgroups|
      ensures WithinCap(t.subgroups[i])
    {
      TruncateChild(g, i);
      TruncateWithinCap(g.subgroups[i]);
    }
  }

  /** What a reported group account keeps of a group: its id and name. */
  function Labels(gs: seq<Group>): (r: seq<(int, string)>)
    ensures |r| == |gs|
  {
    if |gs| == 0 then [] else [(gs[0].id, gs[0].name)] + Labels(gs[1..])
  }

  lemma {:induction false} LabelsAppend(a: seq<Group>, b: seq<Group>)
    ensures Labels(a + b) == Labels(a) + Labels(b)
  {
    if |a| > 0 {
      assert (a + b)[1..] == a[1..] + b;
      LabelsAppend(a[1..], b);
    } else {
      assert a + b == b;
    }
  }

  /** Two blocks with the same head label, flattenings with the same labels,
      and tails with the same labels carry the same labels. */
  lemma BlockLabels(x: Group, y: Group, restX: seq<Group>, restY: seq<Group>)
    requires x.id == y.id && x.name == y.name
    requires Labels(SubGroups(x)) == Labels(SubGroups(y))
    requires Labels(restX) == Labels(restY)
    ensures Labels([x] + SubGroups(x) + restX) == Labels([y] + SubGroups(y) + restY)
  {
    LabelsAppend([x] + SubGroups(x), restX);
    LabelsAppend([x], SubGroups(x));
    LabelsAppend([y] + SubGroups(y), restY);
    LabelsAppend([y], SubGroups(y));
  }

  /** The cap applies at every level independently: cutting every level to
      its first 100 children changes neither the ids nor the names of the
      flattening, nor their order. */
  lemma {:induction false} TruncateKeepsLabels(g: Group)
    ensures Labels(SubGroups(Truncate(g))) == Labels(SubGroups(g))
    decreases g, |g.subgroups| + 1
  {
    VisitTruncate(g, 0);
  }

  lemma {:induction false} VisitTruncate(g: Group, i: nat)
    requires i <= Min(MaxSubgroups, |g.subgroups|)
    ensures Labels(VisitFrom(Truncate(g), i)) == Labels(VisitFrom(g, i))
    decreases g, |g.subgroups| - i
  {
    if i == Min(MaxSubgroups, |g.subgroups|) {
      if i < |g.subgroups| {
        VisitPastCap(g, i);
      }
    } else {
      var child := g.subgroups[i];
      var t := Truncate(g);
      TruncateChild(g, i);
      TruncateKeepsLabels(child);
      VisitTruncate(g, i + 1);
      assert VisitFrom(t, i) == [Truncate(child)] + SubGroups(Truncate(child)) + VisitFrom(t, i + 1);
      BlockLabels(Truncate(child), child, VisitFrom(t, i + 1), VisitFrom(g, i + 1));
    }
  }
}

=== FILE: keycloak.dfy ===
/** The Keycloak admin-API client: deriving the admin search URL from the
    issuer, searching users and groups, and fetching one record by id.  The
    HTTP GET is an oracle `fetch(accessToken, url)` whose reply carries the
    body already decoded into each shape the client asks for; URL encoding is
    the opaque `encode`. */
module KeycloakClient {
  import opened GoStrings
  import opened KeycloakGroups

  const UserType := "user"
  const GroupType := "group"
  const AuthMarker := "/auth/"

  /** A directory account; `accountType` is the tag the client assigns. */
  datatype Account = Account(
    id: int,
    email: string,
    emailVerified: string,
    username: string,
    enabled: bool,
    name: string,
    lastName: string,
    accountType: string)

  const EmptyAccount := Account(0, "", "", "", false, "", "", "")

  /** A reply body as each shape the client unmarshals it into; `None` means
      unmarshalling into that shape fails. */
  datatype Body = Body(asAccounts: Option<seq<Account>>, asGroups: Option<seq<Group>>, asAccount: Option<Account>)

  /** What a GET returns: body, status code, and whether an error came back. */
  datatype Reply = Reply(body: Body, status: int, failed: bool)

  datatype SearchError =
    | RequestFailed(status: int, url: string)  // user search or lookup: wrapped with status and url
    | FetchFailed                              // group search: the fetch error as is
    | DecodeFailed                             // the body does not unmarshal

  /** The accounts and error a search returns, and the URLs it fetched, in order. */
  datatype SearchOutcome = SearchOutcome(accounts: seq<Account>, err: Option<SearchError>, requests: seq<string>)

  /** Offset just past the first "/auth/" of the issuer. */
  function MarkerEnd(issuer: string): (k: nat)
    requires Contains(issuer, AuthMarker)
    ensures |AuthMarker| <= k <= |issuer| && issuer[k - |AuthMarker|..k] == AuthMarker
  {
    Index(issuer, AuthMarker).value + |AuthMarker|
  }

  /** The part of the issuer after its first "/auth/" that getSearchURL keeps:
      all of it, or up to and including a second "/auth/". */
  function KeptTail(tail: string): (t: string)
    ensures HasPrefix(tail, t)
    ensures Index(tail, AuthMarker).None? ==> t == tail
    ensures Index(tail, AuthMarker).Some? ==> HasPrefix(t, tail[..Index(tail, AuthMarker).value]) && |t| == Index(tail, AuthMarker).value + |AuthMarker|
  {
    match Index(tail, AuthMarker)
    case None => tail
    case Some(j) => tail[..j + |AuthMarker|]
  }

  /** getSearchURL: "admin/" is inserted right after the first "/auth/" (which
      stays in the result); any second "/auth/" ends the result, dropping what
      follows it.  Go indexes piece 1 of the split without a check, so an
      issuer without "/auth/" is excluded by the precondition. */
  function SearchURL(issuer: string): (r: string)
    requires Contains(issuer, AuthMarker)
    ensures r == issuer[..MarkerEnd(issuer)] + "admin/" + KeptTail(issuer[MarkerEnd(issuer)..])
  {
    var splitIssuer := SplitAfter(issuer, AuthMarker);
    var k := MarkerEnd(issuer);
    assert splitIssuer[0] == issuer[..k];
    assert splitIssuer[1..] == SplitAfter(issuer[k..], AuthMarker);
    splitIssuer[0] + "admin/" + splitIssuer[1]
  }

  const ExampleIssuer := "https://h/auth/realms/foo"

  lemma ExampleFirstMarker()
    ensures Index(ExampleIssuer, AuthMarker) == Some(9)
  {
    var issuer := ExampleIssuer;
    assert OccursAt(issuer, AuthMarker, 9) by {
      assert issuer[9..15] == AuthMarker;
    }
    forall j | 0 <= j < 9
      ensures !OccursAt(issuer, AuthMarker, j)
    {
      if OccursAt(issuer, AuthMarker, j) {
        OccursAtHead(issuer, AuthMarker, j);
      }
    }
    IndexIsFirst(issuer, AuthMarker, 9);
  }

  lemma ExampleNoSecondMarker()
    ensures Index("realms/foo", AuthMarker).None?
  {
    var tail := "realms/foo";
    forall j ensures !OccursAt(tail, AuthMarker, j) {
      if OccursAt(tail, AuthMarker, j) {
        OccursAtHead(tail, AuthMarker, j);
      }
    }
  }

  lemma ExamplePieces()
    ensures Contains(ExampleIssuer, AuthMarker) && MarkerEnd(ExampleIssuer) == 15
    ensures ExampleIssuer[..15] == "https://h/auth/"
    ensures KeptTail(ExampleIssuer[15..]) == "realms/foo"
  {
    ExampleFirstMarker();
    ExampleNoSecondMarker();
    assert ExampleIssuer[15..] == "realms/foo";
  }

  /** The documented example: "https://h/auth/realms/foo" becomes
      "https://h/auth/admin/realms/foo" (the marker is kept). */
  lemma SearchURLExample()
    ensures Contains(ExampleIssuer, AuthMarker)
    ensures SearchURL(ExampleIssuer) == "https://h/auth/admin/realms/foo"
  {
    ExamplePieces();
    ExampleJoined();
  }

  lemma ExampleJoined()
    ensures "https://h/auth/" + "admin/" + "realms/foo" == "https://h/auth/admin/realms/foo"
  {
    var a := "https://h/auth/" + "admin/";
    assert a == "https://h/auth/admin/";
  }

  lemma OccursAtHead(s: string, sep: string, j: int)
    requires OccursAt(s, sep, j)
    requires |sep| >= 2
    ensures s[j] == sep[0] && s[j + 1] == sep[1]
  {
    assert s[j..j + |sep|][0] == s[j];
    assert s[j..j + |sep|][1] == s[j + 1];
  }

  /** "%s/%ss?search=%s" for the users and groups collections. */
  function SearchQuery(sURL: string, kind: string, searchTerm: string): string {
    sURL + "/" + kind + "s?search=" + searchTerm
  }

  /** User records as returned, each tagged as a user. */
  function TagUsers(users: seq<Account>): (r: seq<Account>)
    ensures |r| == |users|
    ensures forall i :: 0 <= i < |r| ==> r[i].accountType == UserType && r[i].(accountType := users[i].accountType) == users[i]
  {
    seq(|users|, i requires 0 <= i < |users| => users[i].(accountType := UserType))
  }

  /** The account a group is reported as: id and name only, tagged as a group. */
  function GroupAccount(g: Group): (a: Account)
    ensures a.id == g.id && a.name == g.name && a.accountType == GroupType
    ensures a.(id := 0, name := "", accountType := "") == EmptyAccount
  {
    EmptyAccount.(id := g.id, name := g.name, accountType := GroupType)
  }

  function GroupAccountsOf(gs: seq<Group>): (r: seq<Account>)
    ensures |r| == |gs|
    ensures forall i :: 0 <= i < |r| ==> r[i] == GroupAccount(gs[i])
  {
    seq(|gs|, i requires 0 <= i < |gs| => GroupAccount(gs[i]))
  }

  /** For each group in response order: the group, then its flattened
      subgroups, all as group accounts. */
  function GroupAccounts(groups: seq<Group>): (r: seq<Account>)
    ensures forall k :: 0 <= k < |r| ==> r[k].accountType == GroupType
    ensures |r| >= |groups|
    ensures groups != [] ==> r[0] == GroupAccount(groups[0])
  {
    if groups == [] then []
    else [GroupAccount(groups[0])] + GroupAccountsOf(SubGroups(groups[0])) + GroupAccounts(groups[1..])
  }

  /** A single group is reported as its own account followed by the accounts
      of its flattened subgroups, in the order getSubGroups yields them. */
  lemma GroupAccountsSingle(g: Group)
    ensures GroupAccounts([g]) == [GroupAccount(g)] + GroupAccountsOf(SubGroups(g))
  {
    assert [g][1..] == [];
  }

  /** The groups of a response are reported one after another: the accounts
      for `a + b` are those for `a` followed by those for `b`. */
  lemma {:induction false} GroupAccountsAppend(a: seq<Group>, b: seq<Group>)
    ensures GroupAccounts(a + b) == GroupAccounts(a) + GroupAccounts(b)
    decreases |a|
  {
    if a == [] {
      assert a + b == b;
    } else {
      assert (a + b)[0] == a[0];
      assert (a + b)[1..] == a[1..] + b;
      GroupAccountsAppend(a[1..], b);
    }
  }

  /** Which group accounts a group search reports: exactly those of the
      returned groups and of their flattened subgroups. */
  lemma {:induction false} GroupAccountsMembers(groups: seq<Group>, a: Account)
    ensures a in GroupAccounts(groups) <==>
            exists k :: 0 <= k < |groups| &&
              (a == GroupAccount(groups[k]) || a in GroupAccountsOf(SubGroups(groups[k])))
  {
    if groups != [] {
      GroupAccountsMembers(groups[1..], a);
      var r := GroupAccounts(groups);
      assert r == [GroupAccount(groups[0])] + GroupAccountsOf(SubGroups(groups[0])) + GroupAccounts(groups[1..]);
      if a in GroupAccounts(groups[1..]) {
        var k :| 0 <= k < |groups[1..]| &&
          (a == GroupAccount(groups[1..][k]) || a in GroupAccountsOf(SubGroups(groups[1..][k])));
        assert groups[1..][k] == groups[k + 1];
      }
      if exists k :: 0 <= k < |groups| && (a == GroupAccount(groups[k]) || a in GroupAccountsOf(SubGroups(groups[k]))) {
        var k :| 0 <= k < |groups| && (a == GroupAccount(groups[k]) || a in GroupAccountsOf(SubGroups(groups[k])));
        if k > 0 {
          assert groups[1..][k - 1] == groups[k];
        }
      }
    }
  }

  /** Number of nodes in a forest of groups. */
  function ForestSize(groups: seq<Group>): nat {
    if groups == [] then 0 else 1 + Count(groups[0]) + ForestSize(groups[1..])
  }

  /** When no level exceeds the subgroup cap, a group search reports one
      account per group node in the returned forest. */
  lemma {:induction false} GroupAccountsLength(groups: seq<Group>)
    requires forall k :: 0 <= k < |groups| ==> WithinCap(groups[k])
    ensures |GroupAccounts(groups)| == ForestSize(groups)
  {
    if groups != [] {
      SubGroupsLengthWithinCap(groups[0]);
      GroupAccountsLength(groups[1..]);
    }
  }

  /** Result of the user query: stop with an outcome, or go on with the
      accounts and request log gathered so far. */
  datatype Step = Stop(outcome: SearchOutcome) | Continue(accounts: seq<Account>, requests: seq<string>)

  function UserQuery(sURL: string, searchTerm: string, accessToken: string,
                     fetch: (string, string) -> Reply, encode: string -> string): (s: Step)
    ensures var url := encode(SearchQuery(sURL, UserType, searchTerm));
            var reply := fetch(accessToken, url);
            && (s.Stop? ==> s.outcome.accounts == [] && s.outcome.requests == [url])
            && (s.Stop? && s.outcome.err.None? <==> reply.status == 401)
            && (s.Continue? <==> reply.status != 401 && !reply.failed && reply.body.asAccounts.Some?)
            && (s.Continue? ==> s.requests == [url] && s.accounts == TagUsers(reply.body.asAccounts.value))
            && (reply.status != 401 && reply.failed ==> s.Stop? && s.outcome.err == Some(RequestFailed(reply.status, url)))
            && (reply.status != 401 && !reply.failed && reply.body.asAccounts.None? ==>
                  s.Stop? && s.outcome.err == Some(DecodeFailed))
  {
    var search := encode(SearchQuery(sURL, UserType, searchTerm));
    var reply := fetch(accessToken, search);
    if reply.status == 401 then Stop(SearchOutcome([], None, [search]))
    else if reply.failed then Stop(SearchOutcome([], Some(RequestFailed(reply.status, search)), [search]))
    else match reply.body.asAccounts
      case None => Stop(SearchOutcome([], Some(DecodeFailed), [search]))
      case Some(users) => Continue(TagUsers(users), [search])
  }

  function GroupQuery(accounts: seq<Account>, requests: seq<string>, sURL: string, searchTerm: string,
                      accessToken: string, fetch: (string, string) -> Reply, encode: string -> string)
    : (r: SearchOutcome)
    ensures var url := encode(SearchQuery(sURL, GroupType, searchTerm));
            var reply := fetch(accessToken, url);
            && r.requests == requests + [url]
            && (reply.status == 401 ==> r.accounts == [] && r.err.None?)
            && (reply.status != 401 && r.err.Some? ==> r.accounts == accounts)
            && (r.err.None? && reply.status != 401 ==>
                  reply.body.asGroups.Some? && r.accounts == accounts + GroupAccounts(reply.body.asGroups.value))
            && (reply.status != 401 && reply.failed ==> r.err == Some(FetchFailed) && r.accounts == accounts)
            && (reply.status != 401 && !reply.failed && reply.body.asGroups.None? ==>
                  r.err == Some(DecodeFailed) && r.accounts == accounts)
            && (reply.status != 401 && !reply.failed && reply.body.asGroups.Some? ==>
                  r.err.None? && r.accounts == accounts + GroupAccounts(reply.body.asGroups.value))
  {
    var search := encode(SearchQuery(sURL, GroupType, searchTerm));
    var reply := fetch(accessToken, search);
    var log := requests + [search];
    if reply.status == 401 then SearchOutcome([], None, log)
    else if reply.failed then SearchOutcome(accounts, Some(FetchFailed), log)
    else match reply.body.asGroups
      case None => SearchOutcome(accounts, Some(DecodeFailed), log)
      case Some(groups) => SearchOutcome(accounts + GroupAccounts(groups), None, log)
  }

  /** Whether a search of this type queries users, and groups. */
  predicate WantsUsers(principalType: string) {
    principalType == "" || principalType == UserType
  }

  predicate WantsGroups(principalType: string) {
    principalType == "" || principalType == GroupType
  }

  /** The (encoded) search URL for one collection. */
  function QueryURL(issuer: string, kind: string, searchTerm: string, encode: string -> string): string
    requires Contains(issuer, AuthMarker)
  {
    encode(SearchQuery(SearchURL(issuer), kind, searchTerm))
  }

  /** The tagged user accounts of a reply that decoded as users, else none. */
  function UsersFound(reply: Reply): seq<Account> {
    match reply.body.asAccounts
    case Some(users) => TagUsers(users)
    case None => []
  }

  /** The group accounts of a reply that decoded as groups, else none. */
  function GroupsFound(reply: Reply): seq<Account> {
    match reply.body.asGroups
    case Some(groups) => GroupAccounts(groups)
    case None => []
  }

  /** Every account is tagged user or group, and no user follows a group. */
  predicate UsersThenGroups(accounts: seq<Account>) {
    && (forall i :: 0 <= i < |accounts| ==> accounts[i].accountType == UserType || accounts[i].accountType == GroupType)
    && (forall i, j :: 0 <= i < j < |accounts| && accounts[i].accountType == GroupType ==>
          accounts[j].accountType == GroupType)
  }

  /** Whatever a group query does to a list of user accounts, the result
      lists users before groups. */
  lemma GroupQueryKeepsOrder(accounts: seq<Account>, requests: seq<string>, sURL: string, searchTerm: string,
                             accessToken: string, fetch: (string, string) -> Reply, encode: string -> string)
    requires forall i :: 0 <= i < |accounts| ==> accounts[i].accountType == UserType
    ensures UsersThenGroups(GroupQuery(accounts, requests, sURL, searchTerm, accessToken, fetch, encode).accounts)
  {
  }

  /** The queries a search of this type plans, in order. */
  function PlannedQueries(sURL: string, searchTerm: string, principalType: string,
                          encode: string -> string): seq<string>
  {
    (if principalType == "" || principalType == UserType then [encode(SearchQuery(sURL, UserType, searchTerm))] else [])
    + (if principalType == "" || principalType == GroupType then [encode(SearchQuery(sURL, GroupType, searchTerm))] else [])
  }

  /** searchPrincipals.  Users come first, each tagged "user", then for each
      group its account followed by its flattened subgroups; a 401 on either
      query yields no accounts and no error; an unknown type queries nothing. */
  function SearchPrincipals(searchTerm: string, principalType: string, accessToken: string, issuer: string,
                            fetch: (string, string) -> Reply, encode: string -> string): (r: SearchOutcome)
    requires Contains(issuer, AuthMarker)
    ensures principalType != "" && principalType != UserType && principalType != GroupType ==>
              r == SearchOutcome([], None, [])
    ensures r.requests <= PlannedQueries(SearchURL(issuer), searchTerm, principalType, encode)
    ensures (exists k :: 0 <= k < |r.requests| && fetch(accessToken, r.requests[k]).status == 401) ==>
              r.accounts == [] && r.err.None?
    ensures r.err.None? && (forall k :: 0 <= k < |r.requests| ==> fetch(accessToken, r.requests[k]).status != 401) ==>
              r.requests == PlannedQueries(SearchURL(issuer), searchTerm, principalType, encode)
    ensures UsersThenGroups(r.accounts)
  {
    var sURL := SearchURL(issuer);
    var wantUsers := principalType == "" || principalType == UserType;
    var wantGroups := principalType == "" || principalType == GroupType;
    var step := if wantUsers then UserQuery(sURL, searchTerm, accessToken, fetch, encode) else Continue([], []);
    match step
    case Stop(outcome) =>
      assert outcome.requests[0] == encode(SearchQuery(sURL, UserType, searchTerm));
      outcome
    case Continue(accounts, requests) =>
      if wantGroups then
        GroupQueryKeepsOrder(accounts, requests, sURL, searchTerm, accessToken, fetch, encode);
        GroupQuery(accounts, requests, sURL, searchTerm, accessToken, fetch, encode)
      else SearchOutcome(accounts, None, requests)
  }

  /** When no query failed and none was refused with a 401, a search returns
      the tagged users (if it asked for users) followed by the group accounts
      (if it asked for groups), each in response order. */
  lemma SearchAccounts(searchTerm: string, principalType: string, accessToken: string, issuer: string,
                       fetch: (string, string) -> Reply, encode: string -> string)
    requires Contains(issuer, AuthMarker)
    ensures var r := SearchPrincipals(searchTerm, principalType, accessToken, issuer, fetch, encode);
            var users := fetch(accessToken, QueryURL(issuer, UserType, searchTerm, encode));
            var groups := fetch(accessToken, QueryURL(issuer, GroupType, searchTerm, encode));
            r.err.None? && (forall k :: 0 <= k < |r.requests| ==> fetch(accessToken, r.requests[k]).status != 401) ==>
              r.accounts == (if WantsUsers(principalType) then UsersFound(users) else [])
                            + (if WantsGroups(principalType) then GroupsFound(groups) else [])
  {
    var r := SearchPrincipals(searchTerm, principalType, accessToken, issuer, fetch, encode);
    var sURL := SearchURL(issuer);
    var users := fetch(accessToken, QueryURL(issuer, UserType, searchTerm, encode));
    if WantsUsers(principalType) {
      var step := UserQuery(sURL, searchTerm, accessToken, fetch, encode);
      if step.Continue? {
        assert step.accounts == UsersFound(users);
        if WantsGroups(principalType) {
          assert r == GroupQuery(step.accounts, step.requests, sURL, searchTerm, accessToken, fetch, encode);
          GroupQueryAnswered(step.accounts, step.requests, issuer, searchTerm, accessToken, fetch, encode);
        } else {
          assert r == SearchOutcome(step.accounts, None, step.requests);
        }
      } else {
        assert r == step.outcome;
        assert r.requests[0] == QueryURL(issuer, UserType, searchTerm, encode);
      }
    } else if WantsGroups(principalType) {
      assert r == GroupQuery([], [], sURL, searchTerm, accessToken, fetch, encode);
      GroupQueryAnswered([], [], issuer, searchTerm, accessToken, fetch, encode);
    }
  }

  /** When every query the type asks for is answered without a 401, without
      a fetch error and with a decodable body, the search returns no error,
      makes exactly the planned requests, and reports the tagged users (if it
      asked for users) followed by the group accounts (if it asked for groups). */
  lemma SearchAnswered(searchTerm: string, principalType: string, accessToken: string, issuer: string,
                       fetch: (string, string) -> Reply, encode: string -> string)
    requires Contains(issuer, AuthMarker)
    ensures var r := SearchPrincipals(searchTerm, principalType, accessToken, issuer, fetch, encode);
            var users := fetch(accessToken, QueryURL(issuer, UserType, searchTerm, encode));
            var groups := fetch(accessToken, QueryURL(issuer, GroupType, searchTerm, encode));
            (WantsUsers(principalType) ==> users.status != 401 && !users.failed && users.body.asAccounts.Some?) &&
            (WantsGroups(principalType) ==> groups.status != 401 && !groups.failed && groups.body.asGroups.Some?) ==>
              && r.err.None?
              && r.requests == PlannedQueries(SearchURL(issuer), searchTerm, principalType, encode)
              && r.accounts == (if WantsUsers(principalType) then UsersFound(users) else [])
                               + (if WantsGroups(principalType) then GroupsFound(groups) else [])
  {
    var sURL := SearchURL(issuer);
    var users := fetch(accessToken, QueryURL(issuer, UserType, searchTerm, encode));
    if WantsUsers(principalType) && users.status != 401 && !users.failed && users.body.asAccounts.Some? {
      var step := UserQuery(sURL, searchTerm, accessToken, fetch, encode);
      assert step == Continue(UsersFound(users), [QueryURL(issuer, UserType, searchTerm, encode)]);
    }
  }

  /** A group query with no error whose requests were none of them refused
      adds exactly the group accounts of its reply. */
  lemma GroupQueryAnswered(accounts: seq<Account>, requests: seq<string>, issuer: string, searchTerm: string,
                           accessToken: string, fetch: (string, string) -> Reply, encode: string -> string)
    requires Contains(issuer, AuthMarker)
    ensures var r := GroupQuery(accounts, requests, SearchURL(issuer), searchTerm, accessToken, fetch, encode);
            r.err.None? && (forall k :: 0 <= k < |r.requests| ==> fetch(accessToken, r.requests[k]).status != 401) ==>
              r.accounts == accounts + GroupsFound(fetch(accessToken, QueryURL(issuer, GroupType, searchTerm, encode)))
  {
    var r := GroupQuery(accounts, requests, SearchURL(issuer), searchTerm, accessToken, fetch, encode);
    assert r.requests[|requests|] == QueryURL(issuer, GroupType, searchTerm, encode);
  }

  /** A 401 on the user query ends the search at once with no accounts and
      no error; a 401 on the group query, once the user query (if any)
      succeeded, discards the user accounts and returns no error. */
  lemma Search401(searchTerm: string, principalType: string, accessToken: string, issuer: string,
                  fetch: (string, string) -> Reply, encode: string -> string)
    requires Contains(issuer, AuthMarker)
    ensures var r := SearchPrincipals(searchTerm, principalType, accessToken, issuer, fetch, encode);
            var url := QueryURL(issuer, UserType, searchTerm, encode);
            WantsUsers(principalType) && fetch(accessToken, url).status == 401 ==>
              r == SearchOutcome([], None, [url])
    ensures var r := SearchPrincipals(searchTerm, principalType, accessToken, issuer, fetch, encode);
            var users := fetch(accessToken, QueryURL(issuer, UserType, searchTerm, encode));
            var groupURL := QueryURL(issuer, GroupType, searchTerm, encode);
            var usersDone := !WantsUsers(principalType) || (users.status != 401 && !users.failed && users.body.asAccounts.Some?);
            WantsGroups(principalType) && usersDone && fetch(accessToken, groupURL).status == 401 ==>
              && r.accounts == [] && r.err.None?
              && r.requests == PlannedQueries(SearchURL(issuer), searchTerm, principalType, encode)
  {
  }

  /** A user query that fails, or whose body does not decode, ends the search
      with that error, no accounts, and that one request. */
  lemma SearchUserFailure(searchTerm: string, principalType: string, accessToken: string, issuer: string,
                          fetch: (string, string) -> Reply, encode: string -> string)
    requires Contains(issuer, AuthMarker)
    ensures var r := SearchPrincipals(searchTerm, principalType, accessToken, issuer, fetch, encode);
            var url := QueryURL(issuer, UserType, searchTerm, encode);
            var users := fetch(accessToken, url);
            && (WantsUsers(principalType) && users.status != 401 && users.failed ==>
                  r == SearchOutcome([], Some(RequestFailed(users.status, url)), [url]))
            && (WantsUsers(principalType) && users.status != 401 && !users.failed && users.body.asAccounts.None? ==>
                  r == SearchOutcome([], Some(DecodeFailed), [url]))
  {
  }

  /** A group query that fails, or whose body does not decode, after the user
      query (if any) succeeded, returns the user accounts with an error. */
  lemma SearchGroupFailure(searchTerm: string, principalType: string, accessToken: string, issuer: string,
                           fetch: (string, string) -> Reply, encode: string -> string)
    requires Contains(issuer, AuthMarker)
    ensures var r := SearchPrincipals(searchTerm, principalType, accessToken, issuer, fetch, encode);
            var users := fetch(accessToken, QueryURL(issuer, UserType, searchTerm, encode));
            var groups := fetch(accessToken, QueryURL(issuer, GroupType, searchTerm, encode));
            var usersDone := !WantsUsers(principalType) || (users.status != 401 && !users.failed && users.body.asAccounts.Some?);
            WantsGroups(principalType) && usersDone && groups.status != 401 && (groups.failed || groups.body.asGroups.None?) ==>
              r.err.Some? && r.accounts == (if WantsUsers(principalType) then UsersFound(users) else [])
  {
    var sURL := SearchURL(issuer);
    var users := fetch(accessToken, QueryURL(issuer, UserType, searchTerm, encode));
    if WantsUsers(principalType) && users.status != 401 && !users.failed && users.body.asAccounts.Some? {
      var step := UserQuery(sURL, searchTerm, accessToken, fetch, encode);
      assert step == Continue(UsersFound(users), [QueryURL(issuer, UserType, searchTerm, encode)]);
    }
  }

  /** With both queries answered and decoded, an untyped search returns the
      tagged users in response order followed by the group accounts. */
  lemma SearchBothAnswered(searchTerm: string, accessToken: string, issuer: string,
                           fetch: (string, string) -> Reply, encode: string -> string,
                           users: seq<Account>, groups: seq<Group>)
    requires Contains(issuer, AuthMarker)
    requires var u := fetch(accessToken, encode(SearchQuery(SearchURL(issuer), UserType, searchTerm)));
             u.status != 401 && !u.failed && u.body.asAccounts == Some(users)
    requires var g := fetch(accessToken, encode(SearchQuery(SearchURL(issuer), GroupType, searchTerm)));
             g.status != 401 && !g.failed && g.body.asGroups == Some(groups)
    ensures var r := SearchPrincipals(searchTerm, "", accessToken, issuer, fetch, encode);
            && r.err.None?
            && r.accounts[..|users|] == TagUsers(users)
            && r.accounts[|users|..] == GroupAccounts(groups)
  {
    var r := SearchPrincipals(searchTerm, "", accessToken, issuer, fetch, encode);
    assert r.accounts == TagUsers(users) + GroupAccounts(groups);
  }

  /** A failed or undecodable group query after a successful user query
      still returns the user accounts, together with the error. */
  lemma SearchGroupFailureKeepsUsers(searchTerm: string, accessToken: string, issuer: string,
                                     fetch: (string, string) -> Reply, encode: string -> string,
                                     users: seq<Account>)
    requires Contains(issuer, AuthMarker)
    requires var u := fetch(accessToken, encode(SearchQuery(SearchURL(issuer), UserType, searchTerm)));
             u.status != 401 && !u.failed && u.body.asAccounts == Some(users)
    requires var g := fetch(accessToken, encode(SearchQuery(SearchURL(issuer), GroupType, searchTerm)));
             g.status != 401 && (g.failed || g.body.asGroups.None?)
    ensures var r := SearchPrincipals(searchTerm, "", accessToken, issuer, fetch, encode);
            r.err.Some? && r.accounts == TagUsers(users)
  {
  }

  /** The result of a lookup by id, and the URL it fetched. */
  datatype Lookup = Lookup(account: Account, err: Option<SearchError>, request: string)

  /** getFromKeyCloakByID: GET `<admin base>/<searchType>/<id>`.  The status
      code only enters the error text: unlike a search, a 401 is not treated
      specially. */
  function GetFromKeyCloakByID(principalID: string, accessToken: string, searchType: string, issuer: string,
                               fetch: (string, string) -> Reply, encode: string -> string): (r: Lookup)
    requires Contains(issuer, AuthMarker)
    ensures r.request == encode(SearchURL(issuer) + "/" + searchType + "/" + principalID)
    ensures var reply := fetch(accessToken, r.request);
            && (r.err.None? <==> !reply.failed && reply.body.asAccount.Some?)
            && (r.err.None? ==> r.account == reply.body.asAccount.value)
            && (r.err.Some? ==> r.account == EmptyAccount)
            && (reply.failed ==> r.err == Some(RequestFailed(reply.status, r.request)))
  {
    var sURL := SearchURL(issuer);
    var search := encode(sURL + "/" + searchType + "/" + principalID);
    var reply := fetch(accessToken, search);
    if reply.failed then Lookup(EmptyAccount, Some(RequestFailed(reply.status, search)), search)
    else match reply.body.asAccount
      case None => Lookup(EmptyAccount, Some(DecodeFailed), search)
      case Some(a) => Lookup(a, None, search)
  }

  /** Two lookups whose replies differ only in status code give the same
      account and the same success. */
  lemma LookupIgnoresStatus(principalID: string, accessToken: string, searchType: string, issuer: string,
                            fetch: (string, string) -> Reply, fetch': (string, string) -> Reply,
                            encode: string -> string)
    requires Contains(issuer, AuthMarker)
    requires forall t, u :: fetch'(t, u) == fetch(t, u).(status := fetch'(t, u).status)
    ensures var r := GetFromKeyCloakByID(principalID, accessToken, searchType, issuer, fetch, encode);
            var r' := GetFromKeyCloakByID(principalID, accessToken, searchType, issuer, fetch', encode);
            r.account == r'.account && r.err.None? == r'.err.None?
  {
  }
}

=== FILE: login.dfy ===
/** The generic OIDC provider's login: the scopes it requests, which raw
    token it verifies, the principals it builds and the access check that
    decides whether the access token is handed back.  The identity provider,
    the access policy and the token manager are oracles. */
module Login {
  import opened GoStrings
  import opened Principals

  const ScopeOpenID := "openid"

  /** The provider configuration fields the login reads. */
  datatype OIDCConfig = OIDCConfig(
    issuer: string,
    clientId: string,
    clientSecret: string,
    rancherUrl: string,
    scopes: string,
    accessMode: string,
    allowedPrincipalIds: seq<string>,
    certificate: string,
    privateKey: string)

  /** A raw field of the token response, as far as a string assertion sees it. */
  datatype ExtraValue = Text(text: string) | NotText

  /** The token-exchange response: the access token and the raw extra fields. */
  datatype OAuthToken = OAuthToken(accessToken: string, extra: map<string, ExtraValue>)

  /** The identity provider's answers, each the outcome of a foreign call:
      loading the client certificate and key, discovery for the issuer, the
      code exchange (code, scopes, "scope" parameter), verification of a raw
      token for a client id, and the user-info fetch for a token. */
  datatype Idp = Idp(
    certKeyOk: (string, string) -> bool,
    discover: string -> bool,
    exchange: (string, seq<string>, string) -> Option<OAuthToken>,
    verify: (string, string) -> bool,
    userInfo: OAuthToken -> Option<UserInfo>)

  /** What the access policy answers: allowed, and whether it failed. */
  datatype AccessDecision = AccessDecision(allowed: bool, failed: bool)

  /** Access policy: (access mode, allowed principal ids, user id, group principals). */
  type AccessCheck = (string, seq<string>, string, seq<Principal>) -> AccessDecision

  datatype LoginError =
    | CertKeyError
    | DiscoveryError
    | ExchangeError
    | MissingToken
    | VerifyError
    | UserInfoError
    | ClaimsError
    | AccessCheckError
    | Unauthorized

  /** The four results of LoginUser: user principal, group principals,
      access token, error. */
  datatype LoginResult = LoginResult(user: Principal, groups: seq<Principal>, accessToken: string, err: Option<LoginError>)

  /** The requested scopes: "openid", then the comma-separated configured
      scopes as they stand (an empty configuration adds one empty scope). */
  function Scopes(configScopes: string): (r: seq<string>)
    ensures |r| >= 2 && r[0] == ScopeOpenID
    ensures forall i :: 1 <= i < |r| ==> ',' !in r[i]
    ensures Join(r[1..], ",") == configScopes
  {
    var configured := Split(configScopes, ",");
    SplitJoin(configScopes, ",");
    forall i | 0 <= i < |configured|
      ensures ',' !in configured[i]
    {
      if ',' in configured[i] {
        var j :| 0 <= j < |configured[i]| && configured[i][j] == ',';
        OccursAtChar(configured[i], ',', j);
      }
    }
    var r := [ScopeOpenID] + configured;
    assert r[1..] == configured;
    r
  }

  /** The configured scopes are exactly the ones requested after "openid":
      any list of comma-free scopes survives a trip through the configuration
      string. */
  lemma ScopesRoundTrip(configured: seq<string>)
    requires |configured| >= 1
    requires forall i :: 0 <= i < |configured| ==> ',' !in configured[i]
    ensures Scopes(Join(configured, ",")) == [ScopeOpenID] + configured
  {
    JoinSplit(configured, ',');
  }

  /** The raw token to verify: the response's "id_token" when it is a
      string, else its "access_token" when that is a string, else none. */
  function RawToken(extra: map<string, ExtraValue>): (r: Option<string>)
    ensures r.Some? ==> ("id_token" in extra && extra["id_token"] == Text(r.value)) ||
                        ("access_token" in extra && extra["access_token"] == Text(r.value))
    ensures r.None? <==> !("id_token" in extra && extra["id_token"].Text?) &&
                         !("access_token" in extra && extra["access_token"].Text?)
    ensures "id_token" in extra && extra["id_token"].Text? ==> r == Some(extra["id_token"].text)
  {
    if "id_token" in extra && extra["id_token"].Text? then Some(extra["id_token"].text)
    else if "access_token" in extra && extra["access_token"].Text? then Some(extra["access_token"].text)
    else None
  }

  /** One group principal per claimed group, in order, each a membership. */
  function GroupPrincipals(groups: seq<string>): (r: seq<Principal>)
    ensures |r| == |groups|
    ensures forall i :: 0 <= i < |r| ==>
              r[i].memberOf && !r[i].me && r[i].principalType == GroupType &&
              ParseId(r[i].name) == Ok(ParsedId(GroupType, groups[i])) && r[i].displayName == groups[i]
    ensures forall i :: 0 <= i < |r| ==>
              r[i].name == FormatId(ProviderName, GroupType, groups[i]) && r[i].loginName == "" &&
              r[i].provider == ProviderName
  {
    seq(|groups|, i requires 0 <= i < |groups| => GroupToPrincipal(groups[i]).(memberOf := true))
  }

  /** The tail of LoginUser: build the user (flagged as the caller) and its
      group principals, then ask the access policy.  The access token comes
      back only on an allow; a policy failure or a deny returns the
      principals with an empty token. */
  function Authorize(config: OIDCConfig, userInfo: UserInfo, info: Claims, token: OAuthToken,
                     checkAccess: AccessCheck): (r: LoginResult)
    ensures r.user.me && ParseId(r.user.name) == Ok(ParsedId(UserType, userInfo.subject))
    ensures r.user == UserToPrincipal(userInfo, info).(me := true)
    ensures r.groups == GroupPrincipals(info.groups)
    ensures var d := checkAccess(config.accessMode, config.allowedPrincipalIds, r.user.name, r.groups);
            && (r.err.None? <==> d.allowed && !d.failed)
            && (r.err.None? ==> r.accessToken == token.accessToken)
            && (r.err.Some? ==> r.accessToken == "")
            && (d.failed ==> r.err == Some(AccessCheckError))
            && (!d.failed && !d.allowed ==> r.err == Some(Unauthorized))
  {
    var userPrincipal := UserToPrincipal(userInfo, info).(me := true);
    var groupPrincipals := GroupPrincipals(info.groups);
    var decision := checkAccess(config.accessMode, config.allowedPrincipalIds, userPrincipal.name, groupPrincipals);
    if decision.failed then LoginResult(userPrincipal, groupPrincipals, "", Some(AccessCheckError))
    else if !decision.allowed then LoginResult(userPrincipal, groupPrincipals, "", Some(Unauthorized))
    else LoginResult(userPrincipal, groupPrincipals, token.accessToken, None)
  }

  /** An early failure: Go's zero principal, no groups, no token. */
  function Fail(e: LoginError): LoginResult {
    LoginResult(EmptyPrincipal, [], "", Some(e))
  }

  /** LoginUser for a given configuration, as written: when the exchange
      response has neither an "id_token" nor an "access_token" string, it
      returns the still-nil error, so the caller sees no error, an empty
      principal and no token. */
  function LoginUser(code: string, config: OIDCConfig, idp: Idp, checkAccess: AccessCheck): (r: LoginResult)
    ensures r.err.Some? ==> r.accessToken == ""
    ensures r.accessToken != "" ==>
              && r.user.me
              && checkAccess(config.accessMode, config.allowedPrincipalIds, r.user.name, r.groups).allowed
    ensures r.err != Some(MissingToken)
    ensures r.user.me ==>
              var allScopes := Scopes(config.scopes);
              var exchanged := idp.exchange(code, allScopes, Join(allScopes, " "));
              && idp.certKeyOk(config.certificate, config.privateKey)
              && idp.discover(config.issuer)
              && exchanged.Some?
              && RawToken(exchanged.value.extra).Some?
              && idp.verify(config.clientId, RawToken(exchanged.value.extra).value)
              && idp.userInfo(exchanged.value).Some?
              && idp.userInfo(exchanged.value).value.claims.Some?
              && r == Authorize(config, idp.userInfo(exchanged.value).value,
                                idp.userInfo(exchanged.value).value.claims.value, exchanged.value, checkAccess)
  {
    if !idp.certKeyOk(config.certificate, config.privateKey) then Fail(CertKeyError)
    else if !idp.discover(config.issuer) then Fail(DiscoveryError)
    else
      var allScopes := Scopes(config.scopes);
      match idp.exchange(code, allScopes, Join(allScopes, " "))
      case None => Fail(ExchangeError)
      case Some(token) =>
        match RawToken(token.extra)
        case None => LoginResult(EmptyPrincipal, [], "", None)
        case Some(rawToken) =>
          if !idp.verify(config.clientId, rawToken) then Fail(VerifyError)
          else match idp.userInfo(token)
            case None => Fail(UserInfoError)
            case Some(userInfo) =>
              match userInfo.claims
              case None => Fail(ClaimsError)
              case Some(info) => Authorize(config, userInfo, info, token, checkAccess)
  }

  /** The exchange succeeded and its response carries a raw token that
      verifies, and the user-info response decodes to `info`. */
  predicate ReachesAccessCheck(code: string, config: OIDCConfig, idp: Idp, token: OAuthToken,
                               userInfo: UserInfo, info: Claims)
  {
    var allScopes := Scopes(config.scopes);
    && idp.certKeyOk(config.certificate, config.privateKey)
    && idp.discover(config.issuer)
    && idp.exchange(code, allScopes, Join(allScopes, " ")) == Some(token)
    && RawToken(token.extra).Some?
    && idp.verify(config.clientId, RawToken(token.extra).value)
    && idp.userInfo(token) == Some(userInfo)
    && userInfo.claims == Some(info)
  }

  /** Once every foreign call succeeds, the login's outcome is the access
      decision on the user and the claimed groups. */
  lemma LoginUserReachesGate(code: string, config: OIDCConfig, idp: Idp, checkAccess: AccessCheck,
                             token: OAuthToken, userInfo: UserInfo, info: Claims)
    requires ReachesAccessCheck(code, config, idp, token, userInfo, info)
    ensures LoginUser(code, config, idp, checkAccess) == Authorize(config, userInfo, info, token, checkAccess)
  {
  }

  /** The code is exchanged with "openid" plus the configured scopes, and the
      "scope" parameter is those scopes joined by spaces. */
  lemma LoginUserExchangeRequest(code: string, config: OIDCConfig, idp: Idp, checkAccess: AccessCheck)
    requires idp.certKeyOk(config.certificate, config.privateKey) && idp.discover(config.issuer)
    requires idp.exchange(code, Scopes(config.scopes), Join(Scopes(config.scopes), " ")).None?
    ensures LoginUser(code, config, idp, checkAccess) == Fail(ExchangeError)
  {
  }

  /** As written, a response with no usable raw token ends the login with no
      error, an empty user principal and no access check. */
  lemma LoginUserMissingTokenIsNoError(code: string, config: OIDCConfig, idp: Idp, checkAccess: AccessCheck,
                                       token: OAuthToken)
    requires idp.certKeyOk(config.certificate, config.privateKey) && idp.discover(config.issuer)
    requires idp.exchange(code, Scopes(config.scopes), Join(Scopes(config.scopes), " ")) == Some(token)
    requires RawToken(token.extra).None?
    ensures var r := LoginUser(code, config, idp, checkAccess);
            r.err.None? && r.user == EmptyPrincipal && r.groups == [] && r.accessToken == ""
  {
  }

  /** A concrete instance: a response with only a non-string "id_token". */
  lemma LoginUserMissingTokenExample()
    ensures var idp := Idp((c, k) => true, i => true,
                           (code, s, p) => Some(OAuthToken("at", map["id_token" := NotText])),
                           (id, t) => true, t => None);
            var r := LoginUser("code", OIDCConfig("https://h", "id", "", "", "", "", [], "", ""), idp,
                               (m, a, u, g) => AccessDecision(false, false));
            r.err.None? && r.user == EmptyPrincipal
  {
  }

  /** LoginUser with the missing-token case reported as an error. */
  function LoginUserChecked(code: string, config: OIDCConfig, idp: Idp, checkAccess: AccessCheck): (r: LoginResult)
    ensures r.err.Some? ==> r.accessToken == ""
    ensures r.err.None? ==>
              && r.user.me
              && checkAccess(config.accessMode, config.allowedPrincipalIds, r.user.name, r.groups).allowed
              && !checkAccess(config.accessMode, config.allowedPrincipalIds, r.user.name, r.groups).failed
    ensures r.user.me ==>
              var allScopes := Scopes(config.scopes);
              var exchanged := idp.exchange(code, allScopes, Join(allScopes, " "));
              && idp.certKeyOk(config.certificate, config.privateKey)
              && idp.discover(config.issuer)
              && exchanged.Some?
              && RawToken(exchanged.value.extra).Some?
              && idp.verify(config.clientId, RawToken(exchanged.value.extra).value)
              && idp.userInfo(exchanged.value).Some?
              && idp.userInfo(exchanged.value).value.claims.Some?
              && r == Authorize(config, idp.userInfo(exchanged.value).value,
                                idp.userInfo(exchanged.value).value.claims.value, exchanged.value, checkAccess)
  {
    if !idp.certKeyOk(config.certificate, config.privateKey) then Fail(CertKeyError)
    else if !idp.discover(config.issuer) then Fail(DiscoveryError)
    else
      var allScopes := Scopes(config.scopes);
      match idp.exchange(code, allScopes, Join(allScopes, " "))
      case None => Fail(ExchangeError)
      case Some(token) =>
        match RawToken(token.extra)
        case None => Fail(MissingToken)
        case Some(rawToken) =>
          if !idp.verify(config.clientId, rawToken) then Fail(VerifyError)
          else match idp.userInfo(token)
            case None => Fail(UserInfoError)
            case Some(userInfo) =>
              match userInfo.claims
              case None => Fail(ClaimsError)
              case Some(info) => Authorize(config, userInfo, info, token, checkAccess)
  }

  /** The corrected login differs from the written one only where no raw
      token is found. */
  lemma LoginUserCheckedAgrees(code: string, config: OIDCConfig, idp: Idp, checkAccess: AccessCheck)
    ensures LoginUserChecked(code, config, idp, checkAccess).err != Some(MissingToken) ==>
              LoginUserChecked(code, config, idp, checkAccess) == LoginUser(code, config, idp, checkAccess)
  {
  }

  /** How fmt's "%s" renders a map entry of the configuration: a missing key
      is a nil interface. */
  function Render(config: map<string, string>, key: string): string {
    if key in config then config[key] else "%!s(<nil>)"
  }

  /** The three parameters of the authorization redirect's query, in order:
      the client id, response type "code" and the redirect URI. */
  function RedirectParams(config: map<string, string>): seq<string> {
    ["client_id=" + Render(config, "clientId"), "response_type=code", "redirect_uri=" + Render(config, "rancherUrl")]
  }

  /** The query of the authorization redirect: its parameters joined by '&'. */
  function RedirectQuery(config: map<string, string>): (q: string)
    ensures q == Join(RedirectParams(config), "&")
  {
    var ps := RedirectParams(config);
    JoinThree(ps[0], ps[1], ps[2], "&");
    ps[0] + "&" + ps[1] + "&" + ps[2]
  }

  /** Three pieces joined by `sep`. */
  lemma JoinThree(a: string, b: string, c: string, sep: string)
    ensures Join([a, b, c], sep) == a + sep + b + sep + c
  {
    assert [a, b, c][1..] == [b, c];
    assert [b, c][1..] == [c];
    assert Join([b, c], sep) == b + sep + c;
  }

  /** Split at '&', the query gives back exactly its three parameters — the
      client id, "response_type=code" (an authorization-code request) and the
      redirect URI — when neither configured value holds a '&'. */
  lemma RedirectQueryParams(config: map<string, string>)
    requires '&' !in Render(config, "clientId") && '&' !in Render(config, "rancherUrl")
    ensures Split(RedirectQuery(config), "&") == RedirectParams(config)
  {
    var ps := RedirectParams(config);
    NoAmpersand("client_id=", Render(config, "clientId"));
    NoAmpersand("redirect_uri=", Render(config, "rancherUrl"));
    assert '&' !in ps[1];
    JoinSplit(ps, '&');
  }

  lemma NoAmpersand(key: string, value: string)
    requires '&' !in key && '&' !in value
    ensures '&' !in key + value
  {
  }

  /** The authorization redirect: the auth endpoint, a '?', then the query.
      When the endpoint holds no '?', cutting the redirect at its first '?'
      gives back exactly the endpoint and the query. */
  function RedirectURL(config: map<string, string>): (r: string)
    ensures HasPrefix(r, Render(config, "authEndpoint") + "?")
    ensures '?' !in Render(config, "authEndpoint") ==>
              SplitN2(r, "?") == [Render(config, "authEndpoint"), RedirectQuery(config)]
  {
    var head := Render(config, "authEndpoint") + "?";
    var q := RedirectQuery(config);
    assert (head + q)[..|head|] == head;
    if '?' in Render(config, "authEndpoint") then head + q
    else
      CutAtQuestionMark(Render(config, "authEndpoint"), q);
      head + q
  }

  /** Cutting `e + "?" + q` at its first '?' gives `e` and `q` when `e` holds
      no '?'. */
  lemma CutAtQuestionMark(e: string, q: string)
    requires '?' !in e
    ensures SplitN2(e + "?" + q, "?") == [e, q]
  {
    assert "?" == ['?'];
    SplitPrefix(e, '?', q);
  }
}

=== FILE: principals.dfy ===
/** The generic OIDC provider's principal model: how user and group principals
    are built from claims, how a principal id `oidc_<kind>://<external>` is
    parsed back, and how a principal is flagged against the caller's token. */
module Principals {
  import opened GoStrings

  const ProviderName := "oidc"
  const UserType := "user"
  const GroupType := "group"

  /** The fields of a principal this provider reads or writes.  `name` is the
      principal id. */
  datatype Principal = Principal(
    name: string,
    displayName: string,
    loginName: string,
    principalType: string,
    provider: string,
    me: bool,
    memberOf: bool)

  /** Go's zero value of a principal. */
  const EmptyPrincipal := Principal("", "", "", "", "", false, false)

  /** The caller's token; only the user principal it records is consulted. */
  datatype Token = Token(userPrincipal: Principal)

  /** Decoded identity attributes from the user-info endpoint. */
  datatype Claims = Claims(
    subject: string,
    name: string,
    preferredUsername: string,
    givenName: string,
    familyName: string,
    email: string,
    emailVerified: bool,
    groups: seq<string>)

  /** The user-info response: its own subject and email, and the claims it
      decodes to (`None` when decoding fails). */
  datatype UserInfo = UserInfo(subject: string, email: string, claims: Option<Claims>)

  /** The two ways an id is refused. */
  datatype IdError = InvalidId | InvalidPrincipalType

  datatype Result<T> = Ok(value: T) | Err(error: IdError)

  /** What an id names: its kind and its external id. */
  datatype ParsedId = ParsedId(kind: string, externalId: string)

  /** `<provider>_<kind>://<external>` */
  function FormatId(provider: string, kind: string, external: string): string {
    provider + "_" + kind + "://" + external
  }

  predicate IsKnownType(kind: string) {
    kind == UserType || kind == GroupType
  }

  /** The id parsing at the head of GetPrincipal.  The provider prefix before
      the first '_' is not checked, and only one leading "//" is trimmed. */
  function ParseId(principalID: string): (r: Result<ParsedId>)
    ensures r.Ok? ==> IsKnownType(r.value.kind)
    ensures r.Ok? ==> ':' in principalID
  {
    var parts := SplitN2(principalID, ":");
    if |parts| != 2 then Err(InvalidId)
    else
      var externalID := TrimPrefix(parts[1], "//");
      var kindParts := SplitN2(parts[0], "_");
      if |kindParts| != 2 then Err(InvalidId)
      else
        var principalType := kindParts[1];
        if externalID == "" && principalType == "" then Err(InvalidId)
        else if !IsKnownType(principalType) then Err(InvalidPrincipalType)
        else
          assert principalID == parts[0] + ":" + parts[1];
          assert principalID[|parts[0]|] == ':';
          Ok(ParsedId(principalType, externalID))
  }

  /** An id with no ':' is refused. */
  lemma ParseIdWithoutColon(principalID: string)
    requires ':' !in principalID
    ensures ParseId(principalID) == Err(InvalidId)
  {
    IndexOfAbsentChar(principalID, ':');
  }

  /** An id whose text before the first ':' has no '_' is refused. */
  lemma ParseIdWithoutUnderscore(head: string, rest: string)
    requires ':' !in head && '_' !in head
    ensures ParseId(head + ":" + rest) == Err(InvalidId)
  {
    IndexOfCharAfter(head, ':', rest);
    SplitPrefix(head, ':', rest);
    IndexOfAbsentChar(head, '_');
  }

  /** Every other id has the shape `<provider>_<kind>:<rest>` with neither ':'
      nor '_' in the provider and no ':' in the kind: it is accepted exactly
      when the kind is "user" or "group", whatever the provider is, and the
      external id is `rest` with one leading "//" removed. */
  lemma ParseIdOfShape(provider: string, kind: string, rest: string)
    requires ':' !in provider && '_' !in provider && ':' !in kind
    ensures IsKnownType(kind) ==>
              ParseId(provider + "_" + kind + ":" + rest) == Ok(ParsedId(kind, TrimPrefix(rest, "//")))
    ensures !IsKnownType(kind) ==> ParseId(provider + "_" + kind + ":" + rest).Err?
    ensures !IsKnownType(kind) && (kind != "" || TrimPrefix(rest, "//") != "") ==>
              ParseId(provider + "_" + kind + ":" + rest) == Err(InvalidPrincipalType)
    ensures kind == "" && TrimPrefix(rest, "//") == "" ==>
              ParseId(provider + "_" + kind + ":" + rest) == Err(InvalidId)
  {
    var head := provider + "_" + kind;
    assert ':' !in head by {
      assert forall k :: 0 <= k < |head| ==> head[k] in provider || head[k] == '_' || head[k] in kind;
    }
    assert provider + "_" + kind + ":" + rest == head + ":" + rest;
    IndexOfCharAfter(head, ':', rest);
    SplitPrefix(head, ':', rest);
    IndexOfCharAfter(provider, '_', kind);
    SplitPrefix(provider, '_', kind);
  }

  /** Cutting `a + [c] + b` at its first `c` gives back `a` and `b`. */
  lemma SplitPrefix(a: string, c: char, b: string)
    requires c !in a
    ensures SplitN2(a + [c] + b, [c]) == [a, b]
  {
    IndexOfCharAfter(a, c, b);
    var s := a + [c] + b;
    assert s[..|a|] == a;
    assert s[|a| + 1..] == b;
  }

  /** Round trip: a formatted id of a known kind parses back to exactly that
      kind and external id, for any external id (even one that itself holds
      ':' or starts with "//"). */
  lemma {:induction false} ParseFormatId(provider: string, kind: string, external: string)
    requires ':' !in provider && '_' !in provider
    requires IsKnownType(kind)
    ensures ParseId(FormatId(provider, kind, external)) == Ok(ParsedId(kind, external))
  {
    assert FormatId(provider, kind, external) == provider + "_" + kind + ":" + ("//" + external);
    ParseIdOfShape(provider, kind, "//" + external);
    TrimPrefixOfPrefixed("//", external);
  }

  /** The principal for the logged-in user, built from the user-info response
      and its claims. */
  function UserToPrincipal(userInfo: UserInfo, info: Claims): (p: Principal)
    ensures p.name == FormatId(ProviderName, UserType, userInfo.subject)
    ensures ParseId(p.name) == Ok(ParsedId(UserType, userInfo.subject))
    ensures p.loginName == userInfo.email
    ensures info.name != "" ==> p.displayName == info.name
    ensures info.name == "" ==> p.displayName == userInfo.email
    ensures p.principalType == UserType && p.provider == ProviderName
    ensures !p.me && !p.memberOf
  {
    ParseFormatId(ProviderName, UserType, userInfo.subject);
    var displayName := if info.name == "" then userInfo.email else info.name;
    Principal(FormatId(ProviderName, UserType, userInfo.subject), displayName,
              userInfo.email, UserType, ProviderName, false, false)
  }

  /** The principal for a group named in the claims. */
  function GroupToPrincipal(groupName: string): (p: Principal)
    ensures p.name == FormatId(ProviderName, GroupType, groupName)
    ensures ParseId(p.name) == Ok(ParsedId(GroupType, groupName))
    ensures p.displayName == groupName && p.loginName == ""
    ensures p.principalType == GroupType && p.provider == ProviderName
    ensures !p.me && !p.memberOf
  {
    ParseFormatId(ProviderName, GroupType, groupName);
    Principal(FormatId(ProviderName, GroupType, groupName), groupName, "",
              GroupType, ProviderName, false, false)
  }

  /** Name, login name and type together identify the caller. */
  predicate IsThisUserMe(me: Principal, other: Principal) {
    me.name == other.name && me.loginName == other.loginName && me.principalType == other.principalType
  }

  /** IsThisUserMe is an equivalence: it holds of a principal and itself, in
      either order, and chains. */
  lemma IsThisUserMeEquivalence(a: Principal, b: Principal, c: Principal)
    ensures IsThisUserMe(a, a)
    ensures IsThisUserMe(a, b) == IsThisUserMe(b, a)
    ensures IsThisUserMe(a, b) && IsThisUserMe(b, c) ==> IsThisUserMe(a, c)
    ensures IsThisUserMe(a, b) <==> (a.name, a.loginName, a.principalType) == (b.name, b.loginName, b.principalType)
  {
  }

  /** Flags a principal against the caller's token.  A user is "me" exactly
      when it matches the token's user, and then takes the token's login and
      display names; a group gets its membership from the token manager
      (`isMemberOf`).  No other field changes. */
  function ToPrincipalFromToken(principalType: string, princ: Principal, token: Option<Token>,
                                isMemberOf: (Token, Principal) -> bool): (r: Principal)
    ensures r.name == princ.name && r.provider == princ.provider
    ensures principalType == UserType ==> r.principalType == UserType && r.memberOf == princ.memberOf
    ensures principalType == UserType && token.Some? ==>
              (r.me <==> IsThisUserMe(token.value.userPrincipal, princ.(principalType := UserType)))
    ensures principalType == UserType && token.Some? && r.me ==>
              r.loginName == token.value.userPrincipal.loginName &&
              r.displayName == token.value.userPrincipal.displayName
    ensures principalType == UserType && (token.None? || !r.me) ==>
              r.loginName == princ.loginName && r.displayName == princ.displayName
    ensures principalType == UserType && token.None? ==> r.me == princ.me
    ensures principalType != UserType ==>
              && r.principalType == GroupType && r.me == princ.me
              && r.loginName == princ.loginName && r.displayName == princ.displayName
    ensures principalType != UserType && token.Some? ==>
              r.memberOf == isMemberOf(token.value, princ.(principalType := GroupType))
    ensures principalType != UserType && token.None? ==> r.memberOf == princ.memberOf
  {
    if principalType == UserType then
      var p := princ.(principalType := UserType);
      if token.Some? then
        var me := IsThisUserMe(token.value.userPrincipal, p);
        if me then
          p.(me := true, loginName := token.value.userPrincipal.loginName,
             displayName := token.value.userPrincipal.displayName)
        else p.(me := false)
      else p
    else
      var p := princ.(principalType := GroupType);
      if token.Some? then p.(memberOf := isMemberOf(token.value, p)) else p
  }

  /** For a user, flagging twice is flagging once. */
  lemma ToPrincipalFromTokenUserIdempotent(princ: Principal, token: Option<Token>,
                                           isMemberOf: (Token, Principal) -> bool)
    ensures var once := ToPrincipalFromToken(UserType, princ, token, isMemberOf);
            ToPrincipalFromToken(UserType, once, token, isMemberOf) == once
  {
  }

  /** Resolves a principal id for the caller holding `token`.  The user branch
      compares the WHOLE id with "user", which an id that parsed (and so holds
      a ':') never equals: every accepted id is rebuilt as a group principal
      and then flagged with the parsed kind. */
  function GetPrincipal(principalID: string, token: Token, isMemberOf: (Token, Principal) -> bool)
    : (r: Result<Principal>)
    ensures r.Err? <==> ParseId(principalID).Err?
    ensures r.Err? ==> r.error == ParseId(principalID).error
    ensures r.Ok? ==> r.value.principalType == ParseId(principalID).value.kind
    ensures r.Ok? ==> r.value.name == FormatId(ProviderName, GroupType, ParseId(principalID).value.externalId)
    ensures r.Ok? ==> r.value.provider == ProviderName
  {
    match ParseId(principalID)
    case Err(e) => Err(e)
    case Ok(parsed) =>
      var p :=
        if principalID == UserType then
          Principal(parsed.kind + "://" + parsed.externalId, parsed.externalId, parsed.externalId,
                    UserType, ProviderName, false, false)
        else GroupToPrincipal(parsed.externalId);
      Ok(ToPrincipalFromToken(parsed.kind, p, Some(token), isMemberOf))
  }

  /** GetPrincipal of a group id: the group principal for the external id,
      flagged by the token manager and never "me". */
  lemma GetPrincipalGroup(external: string, token: Token, isMemberOf: (Token, Principal) -> bool)
    ensures var r := GetPrincipal(FormatId(ProviderName, GroupType, external), token, isMemberOf);
            && r.Ok?
            && r.value == GroupToPrincipal(external).(memberOf := isMemberOf(token, GroupToPrincipal(external)))
  {
    ParseFormatId(ProviderName, GroupType, external);
  }

  /** GetPrincipal of a user id keeps the group-shaped name, so against a
      token whose user principal came from UserToPrincipal it is never "me"
      and keeps the external id as display name and an empty login name. */
  lemma GetPrincipalUserNeverMe(subject: string, userInfo: UserInfo, info: Claims,
                                isMemberOf: (Token, Principal) -> bool)
    ensures var token := Token(UserToPrincipal(userInfo, info).(me := true));
            var r := GetPrincipal(FormatId(ProviderName, UserType, subject), token, isMemberOf);
            && r.Ok?
            && r.value.principalType == UserType
            && !r.value.me
            && r.value.displayName == subject
            && r.value.loginName == ""
  {
    var id := FormatId(ProviderName, UserType, subject);
    ParseFormatId(ProviderName, UserType, subject);
    GetPrincipalParsed(id, Token(UserToPrincipal(userInfo, info).(me := true)), isMemberOf);
    FormatIdKindsDiffer(ProviderName, userInfo.subject, subject);
  }

  /** Every id that parses is rebuilt as a group principal and then flagged
      with its parsed kind. */
  lemma GetPrincipalParsed(id: string, token: Token, isMemberOf: (Token, Principal) -> bool)
    requires ParseId(id).Ok?
    ensures GetPrincipal(id, token, isMemberOf) ==
            Ok(ToPrincipalFromToken(ParseId(id).value.kind, GroupToPrincipal(ParseId(id).value.externalId),
                                    Some(token), isMemberOf))
  {
    assert ':' !in UserType;
  }

  /** A user id and a group id of the same provider never coincide. */
  lemma FormatIdKindsDiffer(provider: string, a: string, b: string)
    ensures FormatId(provider, UserType, a) != FormatId(provider, GroupType, b)
  {
    var u := FormatId(provider, UserType, a);
    var g := FormatId(provider, GroupType, b);
    assert u[|provider| + 1] == 'u';
    assert g[|provider| + 1] == 'g';
  }

  lemma SearchNameOfUnknownType(kind: string, searchValue: string)
    requires kind != "" && !IsKnownType(kind)
    ensures ':' !in kind ==> ParseId(FormatId(ProviderName, kind, searchValue)) == Err(InvalidPrincipalType)
  {
    if ':' !in kind {
      assert FormatId(ProviderName, kind, searchValue) == ProviderName + "_" + kind + ":" + ("//" + searchValue);
      ParseIdOfShape(ProviderName, kind, "//" + searchValue);
    }
  }

  /** The provider's search: echoes the search value as one candidate of the
      requested type (a user when no type is given).  The type is not
      checked, so an unknown type yields an id that ParseId refuses. */
  function SearchPrincipals(searchValue: string, principalType: string): (r: seq<Principal>)
    ensures |r| == 1
    ensures r[0].name == FormatId(ProviderName, r[0].principalType, searchValue)
    ensures r[0].displayName == searchValue && r[0].loginName == searchValue
    ensures r[0].principalType == (if principalType == "" then UserType else principalType)
    ensures r[0].provider == ProviderName && !r[0].me && !r[0].memberOf
    ensures principalType == "" || IsKnownType(principalType) ==>
              ParseId(r[0].name) == Ok(ParsedId(r[0].principalType, searchValue))
    ensures principalType != "" && !IsKnownType(principalType) && ':' !in principalType ==>
              ParseId(r[0].name) == Err(InvalidPrincipalType)
  {
    var kind := if principalType == "" then UserType else principalType;
    var p := Principal(FormatId(ProviderName, kind, searchValue), searchValue, searchValue,
                       kind, ProviderName, false, false);
    if IsKnownType(kind) then
      ParseFormatId(ProviderName, kind, searchValue);
      [p]
    else
      SearchNameOfUnknownType(kind, searchValue);
      [p]
  }
}
